=== FILE: README.md ===
# Patch orchestration of the sensenet content repository, in Dafny

This project models the patch manager of sensenet
(`src/ContentRepository/Packaging/PatchManager.cs`) and proves properties of it.
At start-up the patch manager decides which component patches to run and runs
them in two phases:

- **Before repository start.** The before-start actions of the installers run.
- **After repository start.** The after-start actions run.

A patch is either a component *installer* or an *upgrade patch* (`SnPatch`)
with a version boundary. Each phase works on two lists:

- the list of *candidate* patches;
- the list of *installed component descriptors*. A descriptor records a
  component's successful version and its faulty-before and faulty-after
  versions.

Each phase repeats passes over the patches it still has to execute. A pass
executes the eligible patches, skips the irrelevant ones and leaves the
blocked ones for the next pass. The phase stops when nothing is left or when
a pass makes no progress. Whatever is left is classified into error records
(`RecognizeErrors`). The model also covers the conversion between a patch and
its stored package.

The model has these parts:

- `versions.dfy`: `System.Version`, with its lexicographic order. It also
  models how the class's user-defined operators treat a null left operand:
  `>` and `>=` are false, and `<` is true (as on .NET Core). It also has the
  boundary interval test.
- `model.dfy`: patches, descriptors, execution results, error records, and
  the two exceptions that end a phase. These are `NotImplemented`, thrown for
  an upgrade patch that reaches a prerequisite check, and `DescriptorMissing`,
  thrown by `First` in `ModifyState`.
- `lists.dfy`: `List.Remove`, a loop of removals, and LINQ `Except`, with
  their .NET semantics on reference elements.
- `state.dfy`: `CreateInitialState` and `ModifyState`, that is, the transition
  table of a descriptor.
- `prerequisites.dfy`:
  - duplicate detection;
  - the dependency rule, which is lenient before start and strict after it;
  - the eligibility ladders of the two phases.
- `ladders.dfy`: how the transition table and the ladders fit together.
- `classifier.dfy`: `RecognizeErrors`. In the after-start phase the stuck
  list and the candidate list are the same list.
- `engine.dfy`: one phase as a loop of passes, written as pure functions over
  an explicit `Run` state (candidates, installed, errors). It is generic over
  the phase. The after-start phase exists in two variants:
  - `AsWritten` creates the initial descriptor only for a patch without a
    before-start action.
  - `Corrected` always creates it (see Findings).
- `finding.dfy`: the concrete run that shows the difference between the two
  variants.
- `manifest.dfy`: `CreatePackage` and `CreatePatch`, and the round trips
  between them.

Patch identity is by reference in the source. Here it is the patch's `ref`
field, so that two otherwise equal patch objects stay distinct. Actions are
not run. Each action slot holds either no action or the outcome the action
would have: it succeeds, or it throws with a message. In simulation mode no
action runs, which counts as success.

Two points where the code decides the behaviour:

- **Actionless installers before start.** Before repository start, an
  installer without a before-start action is passed over on every pass but
  stays in `toExec`. So the loop always ends with it still pending. Unless
  it is one of several installers of its component, every before-start phase
  reports it as `CannotExecuteOnBefore`, even though it is meant to wait for
  the after-start phase. The model follows the code
  (`Engine.ActionlessInstallerReported`).
- **A missing descriptor after start.** In the after-start phase,
  `ModifyState` can throw inside the `try` block. The `catch` block then calls
  `ModifyState` again, which throws again, so the exception leaves
  `ExecuteOnAfter`. The model ends the phase with `DescriptorMissing` at that
  point.

## Model

| member | source | states |
|---|---|---|
| Versions.LessIsStrictTotalOrder | src/ContentRepository/Packaging/PatchManager.cs:222 | version comparison, used by the fault thresholds, is irreflexive, transitive and total |
| ComponentState.FindIndex | src/ContentRepository/Packaging/PatchManager.cs:426 | the lookup finds the first descriptor of the component, and finds none exactly when no descriptor has that id |
| ComponentState.CreateInitialState | src/ContentRepository/Packaging/PatchManager.cs:424-430 | afterwards the component always has a descriptor. An existing descriptor leaves the list unchanged. Otherwise one blank descriptor is appended, with no version or faults and with the patch's description and dependencies. Distinct ids stay distinct |
| ComponentState.ModifyState | src/ContentRepository/Packaging/PatchManager.cs:431-455 | fails with `DescriptorMissing` exactly when the component has no descriptor. Otherwise only that descriptor changes, following the transition table: Successful sets the version and clears both faults; SuccessfulBefore/Faulty set faulty-after and clear faulty-before; FaultyBefore/Unfinished set faulty-before |
| ComponentState.ModifyStateKeepsShape | src/ContentRepository/Packaging/PatchManager.cs:431-455 | a state change keeps every position's component and the uniqueness of ids. Anything but Successful keeps every successful version |
| ComponentState.CreateInitialStateKeepsShape | src/ContentRepository/Packaging/PatchManager.cs:424-430 | lazy creation only appends, and records no successful version |
| ComponentState.CreateInitialStateUntouched | src/ContentRepository/Packaging/PatchManager.cs:424-430 | creating one component's descriptor leaves every other component's descriptors as they were |
| ComponentState.ModifyStateUntouched | src/ContentRepository/Packaging/PatchManager.cs:431-455 | changing one component's state leaves every other component's descriptors as they were |
| Prerequisites.InstallersFor | src/ContentRepository/Packaging/PatchManager.cs:383-384 | the selection holds only installers of the component and is no longer than the list |
| Prerequisites.InstallersForMembership | src/ContentRepository/Packaging/PatchManager.cs:383-384 | a patch is selected exactly when it is in the list and installs the component |
| Prerequisites.HasDuplicatesMeansTwoInstallers | src/ContentRepository/Packaging/PatchManager.cs:381-385 | the count test `> 1` holds exactly when two different positions of the candidate list install the component |
| Prerequisites.TwoInstallersCount | src/ContentRepository/Packaging/PatchManager.cs:383-384 | counting more than one installer means two positions hold one, and counting any means some position holds one |
| Prerequisites.HasCorrectDependencies | src/ContentRepository/Packaging/PatchManager.cs:387-412 | accepts exactly when there is no self-dependency and every dependency is met by some descriptor of its component. Before start the faulty-after version also counts. No or empty dependencies are accepted, a self-dependency is rejected, and any dependency fails against an empty list |
| Prerequisites.DependenciesStayMet | src/ContentRepository/Packaging/PatchManager.cs:409-411 | under the after-start rule, dependencies once met stay met while no position changes component and no recorded successful version changes |
| Prerequisites.AfterRuleImpliesBeforeRule | src/ContentRepository/Packaging/PatchManager.cs:406-411 | the after-start dependency rule is the stricter one: whatever it accepts, the before-start rule accepts |
| Prerequisites.ComponentRuleBefore | src/ContentRepository/Packaging/PatchManager.cs:219-223 | an installer's component is eligible before start exactly when it is unknown, or has no version, no faulty-after version and no faulty-before version above the patch's. Otherwise it is irrelevant |
| Prerequisites.ComponentRuleAfter | src/ContentRepository/Packaging/PatchManager.cs:332-336 | eligible after start exactly when the component is unknown, or has no version, no faulty-before version at or above the patch's and no faulty-after version above it |
| Prerequisites.CheckBefore | src/ContentRepository/Packaging/PatchManager.cs:210-240 | aborts with `NotImplemented` exactly for an upgrade patch. An installer waits (not yet) exactly when it is duplicated or its dependencies are unmet. An eligible installer has met dependencies, no duplicate and no successful version. An irrelevant one has a descriptor that rules it out. An installer that is not duplicated and has its dependencies met gets exactly the verdict of `ComponentRuleBefore` for its component |
| Prerequisites.CheckAfter | src/ContentRepository/Packaging/PatchManager.cs:324-352 | the same verdicts with the strict dependency rule. An installer that is not duplicated and has its dependencies met gets exactly the verdict of `ComponentRuleAfter` for its component |
| Ladders.SuccessfulBeforeLeadsToAfter | src/ContentRepository/Packaging/PatchManager.cs:442-446 | after a successful before-start action at v, the after-start action at v is eligible and no before-start action runs again for the component |
| Ladders.FaultyBeforeAllowsRetry | src/ContentRepository/Packaging/PatchManager.cs:447-450 | after a failed before-start action at v, a before-start action at u is eligible exactly when v <= u, and the after-start action at u is irrelevant exactly when u <= v |
| Ladders.FaultyAfterBlocksBefore | src/ContentRepository/Packaging/PatchManager.cs:442-446 | after a failed after-start action at v, every before-start action is irrelevant, and the after-start action at u is eligible exactly when v <= u |
| Ladders.SuccessfulIsFinal | src/ContentRepository/Packaging/PatchManager.cs:437-441 | after a successful after-start action, every installer of the component is irrelevant in both phases |
| Lists.RemoveCount | src/ContentRepository/Packaging/PatchManager.cs:179 | `List.Remove` takes away exactly one occurrence of the patch when there is one, and nothing else |
| Lists.RemoveAllCount | src/ContentRepository/Packaging/PatchManager.cs:197-198 | removing the executed patches one by one takes away one occurrence per executed patch, as far as there are any |
| Lists.RemoveAllMembership | src/ContentRepository/Packaging/PatchManager.cs:311-312 | what survives the removals was there before, and every element not removed survives |
| Lists.ExceptMembership | src/ContentRepository/Packaging/PatchManager.cs:487 | an element is in the list `Except` returns exactly when it is in the first list and not in the excluded one |
| Lists.ExceptDistinct | src/ContentRepository/Packaging/PatchManager.cs:487 | no element occurs twice in the list that `Except` returns |
| Lists.ExceptAppend | src/ContentRepository/Packaging/PatchManager.cs:487 | adding one more element to the first list adds it to the end of the result exactly when it is neither excluded nor already earlier in the first list, so the result holds first occurrences in their original order |
| Classifier.CollectDuplicateIds | src/ContentRepository/Packaging/PatchManager.cs:470-475 | the collected ids are distinct. Each is already known or has more than one installer. Every installer with more than one installer of its component contributes its id |
| Classifier.DuplicateIds | src/ContentRepository/Packaging/PatchManager.cs:470-475 | exactly the components with more than one stuck installer, each once |
| Classifier.DuplicateRecords | src/ContentRepository/Packaging/PatchManager.cs:479-485 | one `DuplicatedInstaller` record per duplicated component, listing all of its stuck installers |
| Classifier.RemoveDuplicatesAccounts | src/ContentRepository/Packaging/PatchManager.cs:487-493 | the duplicate loop only removes candidates, and only stuck installers of duplicated components |
| Classifier.RemoveDuplicatesKeeps | src/ContentRepository/Packaging/PatchManager.cs:487-493 | every stuck patch that is not an installer of a duplicated component survives the duplicate loop |
| Classifier.BaseVersionIsRecorded | src/ContentRepository/Packaging/PatchManager.cs:506-508 | an upgrade patch has a base version exactly when a descriptor of its component has a successful version below the patch's and inside the boundary. How `null < v` evaluates never matters |
| Classifier.ClassifyRemaining | src/ContentRepository/Packaging/PatchManager.cs:497-530 | every remaining installer gets a cannot-execute record for the phase. Every remaining upgrade patch without a base version gets `MissingVersion`. Every record written is one of these |
| Classifier.RecognizeErrors | src/ContentRepository/Packaging/PatchManager.cs:467-533 | errors are only appended, never changed or dropped |
| Classifier.RecognizeErrorsReportsDuplicates | src/ContentRepository/Packaging/PatchManager.cs:476-494 | right after the earlier errors come the duplicate records, one per duplicated component, in order |
| Classifier.RecognizeErrorsReportsComponent | src/ContentRepository/Packaging/PatchManager.cs:479-485 | a component with more than one stuck installer gets a `DuplicatedInstaller` record that lists all of its stuck installers |
| Classifier.RecognizeErrorsReportsMissingVersion | src/ContentRepository/Packaging/PatchManager.cs:504-513 | a stuck upgrade patch with no installed base version is reported as `MissingVersion` |
| Classifier.BaseVersionKept | src/ContentRepository/Packaging/PatchManager.cs:506-508 | a descriptor list that only grows and keeps every successful version offers an upgrade patch a base version exactly when the original list does |
| Classifier.RecognizeErrorsReportsStuck | src/ContentRepository/Packaging/PatchManager.cs:515-528 | a stuck installer that is the only stuck installer of its component is reported as not executable in the phase |
| Classifier.RecognizeErrorsBeforeAccounts | src/ContentRepository/Packaging/PatchManager.cs:467-533 | before start, the only candidates removed are stuck installers that a duplicate record lists |
| Classifier.RemoveDuplicatesShape | src/ContentRepository/Packaging/PatchManager.cs:479-494 | after start, where both lists begin as the same list of stuck installers, the duplicate loop leaves in the candidates no occurrence of an installer of a handled component and every occurrence of the others. Once a component is handled, the stuck list holds exactly the installers of the unhandled ones |
| Classifier.RemoveDuplicatesDistinct | src/ContentRepository/Packaging/PatchManager.cs:487 | after one round of the duplicate loop, the stuck list holds no patch twice |
| Classifier.RecognizeErrorsAfterClears | src/ContentRepository/Packaging/PatchManager.cs:531-532 | after start, where the stuck list is the candidate list and holds only installers, no candidate is left |
| Classifier.StuckInstallerCleared | src/ContentRepository/Packaging/PatchManager.cs:531-532 | the final removal loop takes away every remaining occurrence of a stuck installer |
| Engine.Attempt | src/ContentRepository/Packaging/PatchManager.cs:157-185 | aborts exactly when the phase skips creating the descriptor and there is none. A success leaves the component with a descriptor. The list grows by one exactly when the component had no descriptor, and otherwise keeps its length. The component's descriptor goes through the transition of the recorded result: SuccessfulBefore or FaultyBefore before start, Successful or Faulty after it. If the component had no descriptor, a blank one goes through it. Every other descriptor stays as it was. A throwing action appends its error, and before start it also drops the patch from the candidates. A succeeding action changes neither list |
| Engine.Step | src/ContentRepository/Packaging/PatchManager.cs:150-194 | a patch is passed over exactly when it is blocked (skipped, or not yet satisfiable), and then nothing changes. A handled patch is an installer that was not skipped. An upgrade patch that is not skipped aborts with `NotImplemented`. A duplicated installer is never handled. An irrelevant patch is handled and changes nothing. An eligible patch is handled with the result of attempting it, or aborts with that attempt's exception. After start the candidates stay as they are |
| Engine.Pass | src/ContentRepository/Packaging/PatchManager.cs:150-195 | executed patches come from the pass's list and were not skipped. An unaborted pass saw only installers or skipped patches. A pass that executes nothing changes nothing, and every patch in it was blocked |
| Engine.Loop | src/ContentRepository/Packaging/PatchManager.cs:147-205 | the loop terminates. What is left is part of `toExec`. A non-empty remainder is blocked in the final state. After start the candidate list is exactly the remainder |
| Engine.ExecuteOnBefore | src/ContentRepository/Packaging/PatchManager.cs:142-208 | a phase that does not abort saw only installers or patches without a before-start action |
| Engine.ExecuteOnAfter | src/ContentRepository/Packaging/PatchManager.cs:258-322 | a phase that does not abort saw only installers and leaves no candidate |
| Engine.AttemptProgresses | src/ContentRepository/Packaging/PatchManager.cs:157-185 | one attempt only appends descriptors and errors, keeps ids unique, and before start records no successful version |
| Engine.PassProgresses | src/ContentRepository/Packaging/PatchManager.cs:150-195 | the same for a whole pass |
| Engine.LoopProgresses | src/ContentRepository/Packaging/PatchManager.cs:147-205 | the same for the whole loop |
| Engine.ExecuteOnBeforeProgresses | src/ContentRepository/Packaging/PatchManager.cs:142-208 | the before-start phase never removes a descriptor or an error, keeps ids unique and records no successful version |
| Engine.ExecuteOnAfterProgresses | src/ContentRepository/Packaging/PatchManager.cs:258-322 | the after-start phase never removes a descriptor or an error and keeps ids unique |
| Engine.ExecuteOnBeforeAborts | src/ContentRepository/Packaging/PatchManager.cs:225-227 | the before-start phase aborts exactly when some candidate is an upgrade patch with a before-start action |
| Engine.CorrectedAfterAborts | src/ContentRepository/Packaging/PatchManager.cs:338-340 | the corrected after-start phase aborts exactly when some candidate is an upgrade patch |
| Engine.CorrectedExtendsAsWritten | src/ContentRepository/Packaging/PatchManager.cs:270-275 | wherever the after-start phase as written completes, the corrected phase gives the same result |
| Engine.DuplicatedComponentUntouched | src/ContentRepository/Packaging/PatchManager.cs:217 | a component with two installers among the candidates has none of its descriptors created or changed by either phase |
| Engine.ExecuteOnBeforeReportsDuplicates | src/ContentRepository/Packaging/PatchManager.cs:206-207 | when a component has two installers among the candidates, the before-start phase either aborts or reports all of that component's installers in one `DuplicatedInstaller` record |
| Engine.ExecuteOnAfterReportsDuplicates | src/ContentRepository/Packaging/PatchManager.cs:320-321 | the same after repository start, in both variants |
| Engine.ExecuteOnBeforeAccounts | src/ContentRepository/Packaging/PatchManager.cs:142-208 | before start, a candidate disappears only when its execution error or a duplicate record reporting it is in the errors |
| Engine.LoopRemainder | src/ContentRepository/Packaging/PatchManager.cs:150-153 | the remainder is a sub-multiset of `toExec`, and a patch the phase skips is always part of it |
| Engine.ActionlessInstallerReported | src/ContentRepository/Packaging/PatchManager.cs:152-153 | before start, an undisputed installer without a before-start action is always reported as `CannotExecuteOnBefore` |
| Engine.UpgradeWithoutBaseReported | src/ContentRepository/Packaging/PatchManager.cs:504-513 | before start, an upgrade patch without a before-start action and without a base version among the installed components is always reported as `MissingVersion` |
| Engine.LoopKeepsSuccesses | src/ContentRepository/Packaging/PatchManager.cs:258-318 | after start, the loop keeps every position's component and never changes or clears a recorded successful version, because an eligible component has none yet |
| Engine.LoopLeavesUnmet | src/ContentRepository/Packaging/PatchManager.cs:311-318 | after start, an installer whose dependencies are unmet when the loop ends is never executed and is still in `toExec` |
| Engine.ExecuteOnAfterReportsStuck | src/ContentRepository/Packaging/PatchManager.cs:311-321 | after start, an installer that is the only one of its component among the candidates and whose dependencies are still unmet when the phase ends is reported as `CannotExecuteOnAfter`, so the phase never clears it silently |
| Finding.BeforeStartLeavesBoth | src/ContentRepository/Packaging/PatchManager.cs:142-208 | in the example run, the before-start phase executes nothing and reports both installers |
| Finding.AsWrittenAfterStartThrows | src/ContentRepository/Packaging/PatchManager.cs:270-275 | in the example run, the after-start phase as written installs `B` and then throws on `A`, which has no descriptor |
| Finding.CorrectedAfterStartInstallsBoth | src/ContentRepository/Packaging/PatchManager.cs:270-275 | the corrected phase installs both components and leaves no candidate |
| Manifest.CreatePackage | src/ContentRepository/Packaging/PatchManager.cs:37-74 | fails exactly for an installer without a dependency list. The package keeps the patch's component, version and description, and its type follows the kind. An upgrade patch's manifest starts with the dependency on its own component and boundary |
| Manifest.FirstDependencyOn | src/ContentRepository/Packaging/PatchManager.cs:113 | finds the first dependency on the component, and finds none exactly when none names it |
| Manifest.CreatePatch | src/ContentRepository/Packaging/PatchManager.cs:75-129 | a tool package gives no patch. An install package gives an installer whose dependencies are the manifest. A patch package gives an upgrade patch whose boundary is its first self-dependency, taken out of the list, and fails exactly when there is none |
| Manifest.PatchRoundTrip | src/ContentRepository/Packaging/PatchManager.cs:51-64 | a patch stored as a package and read back is the same patch, without actions and with a missing dependency list read as empty |
| Manifest.PackageRoundTrip | src/ContentRepository/Packaging/PatchManager.cs:112-124 | a package read as a patch and stored again is unchanged, except that the self-dependency moves to the front. It is unchanged when the self-dependency is already first |

## Left out

- Persistence: `WriteInitialStateToDb`, `ModifyStateInDb` and `LoadComponents` (lines 370-379 and 415-422) write to and read from a store. The model starts from a given descriptor list and never writes.
- `CollectCandidates` (lines 356-368) asks each registered component for its patches through `PatchBuilder`. The model starts from a given candidate list.
- `ExecutePatchesOnBeforeStart` and `ExecutePatchesOnAfterStart` (lines 134-140 and 250-256) only pass both lists from one phase to the next. The same `Run` value is handed from one phase to the next instead.
- Logging (`Log` and `LogCallback`) is left out. So are the message texts of the duplicate and cannot-execute records. The model does not model a null `LogCallback`, which the direct calls at lines 486, 510 and 518 would make throw.
- The manifest XML format (`Manifest.Create`, `Manifest.Parse`) is left out. A package's manifest is its dependency list, in order.
- The package fields `ReleaseDate`, `ExecutionDate`, `ExecutionResult` and `ExecutionError` are copied both ways by the conversions and are not modelled. `CreatePackage` does not set `Id`. `CreateInstaller` and `CreateSnPatch` give the new patch the package's `Id`; the model passes that identity in as the `ref` argument of `Manifest.CreatePatch`.
- Patch actions are not run. Their effect on the outside world is not modelled, only whether they throw and with what message.
- `ValidInstaller` (lines 242-245) always returns true, so its irrelevant branch at line 216 never fires and is not modelled.
- The `NotSupportedException` paths (lines 237 and 349) and the `ArgumentOutOfRangeException` paths (lines 83 and 452) are not modelled. The datatypes have no patch kind, package type or execution result that reaches them.
- Classifier.DuplicateIds: lists the duplicated components in the order in which the stuck list first names them. The source sorts them by component id with the culture-sensitive string order (line 472). That order only decides the order of the duplicate records.
- Versions.LessOpt: assumes .NET Core, where `null < v` on `System.Version` is true. On .NET Framework the comparison at line 507 throws `ArgumentNullException` instead. `Classifier.BaseVersionIsRecorded` shows this choice never decides a result.
- Partial state on an abort: when a phase ends with an exception (`NotImplemented` or `DescriptorMissing`), the model returns only the exception and no `Run`. In the source the lists are changed in place, so the exception leaves behind every change made until then. Those changes are descriptors created or modified (lines 159-176 and 274-292), candidates removed (line 179, and after start the removals at lines 311-312 through the alias at line 260), and errors appended (line 464). The model makes no promise about that leftover state.
- Concurrency and cancellation tokens are not modelled. The patch manager runs single-threaded.
- The pseudocode for upgrade patches in the comments at lines 228-235 and 341-347 is not implemented in the source, which throws. The model throws too.

## Findings

| source | as written | input that shows it | evidently intended | confidence | as-written member | corrected member |
|---|---|---|---|---|---|---|
| src/ContentRepository/Packaging/PatchManager.cs:270-275 | After repository start, the initial descriptor is created only for a patch without a before-start action. This assumes that a before-start action always ran and created the descriptor. | Nothing is installed. Installer `A` 1.0 has a before-start and an after-start action and depends on `B`. Installer `B` 1.0 has only an after-start action. Before start, neither runs. After start, `B` is installed. `A` is then eligible, but `ModifyState` finds no descriptor for `A`, and the exception escapes `ExecuteOnAfter`. | Create the initial descriptor whenever none exists. `CreateInitialState` already does nothing when one exists. | medium; not executed | Finding.AsWrittenAfterStartThrows | Engine.CorrectedAfterAborts |

=== FILE: classifier.dfy ===
/**
 * `RecognizeErrors`: the pass that runs after a phase's loop has stopped
 * with patches it could not execute, and turns them into reported errors.
 */
module Classifier {
  import opened Common
  import opened Versions
  import opened Model
  import opened Lists
  import opened Prerequisites
  import opened ComponentState

  /** Some `DuplicatedInstaller` record lists patch `x`. */
  ghost predicate DuplicateReported(x: Patch, errors: seq<ErrorRecord>) {
    exists k :: 0 <= k < |errors| && errors[k].DuplicatedInstaller? && x in errors[k].patches
  }

  /**
   * The components that more than one installer of `all` targets, each once,
   * in the order in which `rest` first names them; `seen` holds those
   * already collected.
   */
  function CollectDuplicateIds(rest: seq<Patch>, all: seq<Patch>, seen: seq<ComponentId>): (ids: seq<ComponentId>)
    requires Distinct(seen)
    ensures Distinct(ids)
    ensures forall id :: id in ids ==> id in seen || |InstallersFor(all, id)| > 1
    ensures forall id :: id in seen ==> id in ids
    ensures forall p :: p in rest && p.kind.Installer? && |InstallersFor(all, p.componentId)| > 1 ==> p.componentId in ids
    decreases |rest|
  {
    if |rest| == 0 then seen
    else
      var id := rest[0].componentId;
      var seen' := if rest[0].kind.Installer? && |InstallersFor(all, id)| > 1 && id !in seen then seen + [id] else seen;
      assert forall x :: x in rest ==> x == rest[0] || x in rest[1..];
      CollectDuplicateIds(rest[1..], all, seen')
  }

  /**
   * `installers.GroupBy(x => x.ComponentId).Where(x => x.Count() > 1)`:
   * exactly the components with more than one stuck installer.
   */
  function DuplicateIds(notExecutables: seq<Patch>): (ids: seq<ComponentId>)
    ensures Distinct(ids)
    ensures forall id :: id in ids ==> |InstallersFor(notExecutables, id)| > 1
    ensures forall p :: p in notExecutables && p.kind.Installer? && |InstallersFor(notExecutables, p.componentId)| > 1 ==>
      p.componentId in ids
  {
    CollectDuplicateIds(notExecutables, notExecutables, [])
  }

  /** The two lists the duplicate loop of `RecognizeErrors` shrinks. */
  datatype Sweep = Sweep(notExecutables: seq<Patch>, candidates: seq<Patch>)

  /**
   * One round of the duplicate loop for component `d`: `notExecutables`
   * becomes `notExecutables.Except(faulty)` and then loses each faulty
   * installer once more, as do the candidates.
   */
  function DropInstallers(stuck: seq<Patch>, sw: Sweep, d: ComponentId): Sweep {
    var faulty := InstallersFor(stuck, d);
    Sweep(RemoveAll(Except(sw.notExecutables, faulty), faulty), RemoveAll(sw.candidates, faulty))
  }

  /** The duplicate loop: one round per duplicated component, in order. */
  function RemoveDuplicates(ids: seq<ComponentId>, stuck: seq<Patch>, sw: Sweep): Sweep
    decreases |ids|
  {
    if |ids| == 0 then sw
    else RemoveDuplicates(ids[1..], stuck, DropInstallers(stuck, sw, ids[0]))
  }

  /** The records the duplicate loop appends: one per duplicated component, listing all of its stuck installers. */
  function DuplicateRecords(ids: seq<ComponentId>, stuck: seq<Patch>): (r: seq<ErrorRecord>)
    ensures |r| == |ids|
    ensures forall k :: 0 <= k < |ids| ==> r[k] == DuplicatedInstaller(ids[k], InstallersFor(stuck, ids[k]))
  {
    if |ids| == 0 then []
    else [DuplicatedInstaller(ids[0], InstallersFor(stuck, ids[0]))] + DuplicateRecords(ids[1..], stuck)
  }

  /** The duplicate loop drops from the candidates only stuck installers of the duplicated components. */
  lemma {:induction false} RemoveDuplicatesAccounts(ids: seq<ComponentId>, stuck: seq<Patch>, sw: Sweep, x: Patch)
    ensures x in RemoveDuplicates(ids, stuck, sw).candidates ==> x in sw.candidates
    ensures x in sw.candidates && x !in RemoveDuplicates(ids, stuck, sw).candidates ==>
      x in stuck && x.kind.Installer? && x.componentId in ids
    decreases |ids|
  {
    if |ids| > 0 {
      var faulty := InstallersFor(stuck, ids[0]);
      var next := DropInstallers(stuck, sw, ids[0]);
      RemoveDuplicatesAccounts(ids[1..], stuck, next, x);
      RemoveAllMembership(sw.candidates, faulty, x);
      InstallersForMembership(stuck, ids[0], x);
      assert ids == [ids[0]] + ids[1..];
    }
  }

  /** The duplicate loop keeps every stuck patch that is not an installer of a duplicated component. */
  lemma {:induction false} RemoveDuplicatesKeeps(ids: seq<ComponentId>, stuck: seq<Patch>, sw: Sweep, x: Patch)
    requires x in sw.notExecutables
    requires !(x.kind.Installer? && x.componentId in ids)
    ensures x in RemoveDuplicates(ids, stuck, sw).notExecutables
    decreases |ids|
  {
    if |ids| > 0 {
      var faulty := InstallersFor(stuck, ids[0]);
      var e := Except(sw.notExecutables, faulty);
      InstallersForMembership(stuck, ids[0], x);
      ExceptMembership(sw.notExecutables, faulty, x);
      RemoveAllMembership(e, faulty, x);
      RemoveDuplicatesKeeps(ids[1..], stuck, DropInstallers(stuck, sw, ids[0]), x);
    }
  }

  /**
   * An upgrade patch can still be applied later when some descriptor of its
   * component has a version below the patch's and inside its boundary.
   */
  predicate HasBaseVersion(p: Patch, installed: seq<Descriptor>)
    requires p.kind.Upgrade?
  {
    exists i :: 0 <= i < |installed| && installed[i].componentId == p.componentId &&
      LessOpt(installed[i].version, p.version) && IsInInterval(p.kind.boundary, installed[i].version)
  }

  /** A base version is always a recorded successful version: how `null < v` reads never decides. */
  lemma BaseVersionIsRecorded(p: Patch, installed: seq<Descriptor>)
    requires p.kind.Upgrade?
    ensures HasBaseVersion(p, installed) <==>
      exists i :: 0 <= i < |installed| && installed[i].componentId == p.componentId &&
        installed[i].version.Some? && Less(installed[i].version.value, p.version) &&
        IsInInterval(p.kind.boundary, installed[i].version)
  {
  }

  /** The record `RecognizeErrors` writes for a stuck installer. */
  function CannotExecute(p: Patch, onBefore: bool): ErrorRecord {
    if onBefore then CannotExecuteOnBefore(p) else CannotExecuteOnAfter(p)
  }

  /** `e` is a record the remaining-patch loop may write for the stuck patches `ps`. */
  predicate ClassifiedFrom(e: ErrorRecord, ps: seq<Patch>, installed: seq<Descriptor>, onBefore: bool) {
    match e
    case MissingVersion(p) => p in ps && p.kind.Upgrade? && !HasBaseVersion(p, installed)
    case CannotExecuteOnBefore(p) => onBefore && p in ps && p.kind.Installer?
    case CannotExecuteOnAfter(p) => !onBefore && p in ps && p.kind.Installer?
    case _ => false
  }

  /** The loop over the remaining stuck patches: one record per patch, except an upgrade patch that has a base version. */
  function ClassifyRemaining(ps: seq<Patch>, installed: seq<Descriptor>, onBefore: bool): (r: seq<ErrorRecord>)
    ensures |r| <= |ps|
    ensures forall p :: p in ps && p.kind.Installer? ==> CannotExecute(p, onBefore) in r
    ensures forall p :: p in ps && p.kind.Upgrade? && !HasBaseVersion(p, installed) ==> MissingVersion(p) in r
    ensures forall e :: e in r ==> ClassifiedFrom(e, ps, installed, onBefore)
  {
    if |ps| == 0 then []
    else
      var p := ps[0];
      var here := match p.kind
        case Upgrade(_) => if HasBaseVersion(p, installed) then [] else [MissingVersion(p)]
        case Installer => [CannotExecute(p, onBefore)];
      assert forall x :: x in ps ==> x == ps[0] || x in ps[1..];
      assert forall x :: x in ps[1..] ==> x in ps;
      here + ClassifyRemaining(ps[1..], installed, onBefore)
  }

  /** What `RecognizeErrors` leaves behind: the candidate list and the context's error list. */
  datatype Recognized = Recognized(candidates: seq<Patch>, errors: seq<ErrorRecord>)

  /**
   * `RecognizeErrors`: the candidate list and the error list it leaves.
   * Errors are only ever appended: first the duplicate records, then one
   * record per remaining stuck patch.
   */
  function RecognizeErrors(notExecutables: seq<Patch>, candidates: seq<Patch>, installed: seq<Descriptor>,
                           errors: seq<ErrorRecord>, onBefore: bool): (r: Recognized)
    ensures |errors| <= |r.errors| && r.errors[..|errors|] == errors
  {
    var ids := DuplicateIds(notExecutables);
    var sw := RemoveDuplicates(ids, notExecutables, Sweep(notExecutables, candidates));
    var errs := errors + DuplicateRecords(ids, notExecutables) + ClassifyRemaining(sw.notExecutables, installed, onBefore);
    var cands := if onBefore then sw.candidates else RemoveAll(sw.candidates, sw.notExecutables);
    assert errs[..|errors|] == errors;
    Recognized(cands, errs)
  }

  /** The lists after the duplicate loop of `RecognizeErrors`. */
  function Swept(notExecutables: seq<Patch>, candidates: seq<Patch>): Sweep {
    RemoveDuplicates(DuplicateIds(notExecutables), notExecutables, Sweep(notExecutables, candidates))
  }

  /**
   * Each component with more than one stuck installer gets exactly one
   * `DuplicatedInstaller` record, listing all of them, right after the
   * errors already reported.
   */
  lemma RecognizeErrorsReportsDuplicates(notExecutables: seq<Patch>, candidates: seq<Patch>, installed: seq<Descriptor>,
                                         errors: seq<ErrorRecord>, onBefore: bool)
    ensures var ids := DuplicateIds(notExecutables);
      var errs := RecognizeErrors(notExecutables, candidates, installed, errors, onBefore).errors;
      && |errs| >= |errors| + |ids|
      && forall k :: 0 <= k < |ids| ==> errs[|errors| + k] == DuplicatedInstaller(ids[k], InstallersFor(notExecutables, ids[k]))
  {
    var ids := DuplicateIds(notExecutables);
    var dr := DuplicateRecords(ids, notExecutables);
    var sw := Swept(notExecutables, candidates);
    var cr := ClassifyRemaining(sw.notExecutables, installed, onBefore);
    var errs := RecognizeErrors(notExecutables, candidates, installed, errors, onBefore).errors;
    assert errs == errors + dr + cr;
    forall k | 0 <= k < |ids|
      ensures errs[|errors| + k] == DuplicatedInstaller(ids[k], InstallersFor(notExecutables, ids[k]))
    {
      assert errs[|errors| + k] == dr[k];
    }
  }

  /** A component with more than one stuck installer gets a `DuplicatedInstaller` record listing all of them. */
  lemma RecognizeErrorsReportsComponent(notExecutables: seq<Patch>, candidates: seq<Patch>, installed: seq<Descriptor>,
                                        errors: seq<ErrorRecord>, onBefore: bool, id: ComponentId)
    requires |InstallersFor(notExecutables, id)| > 1
    ensures DuplicatedInstaller(id, InstallersFor(notExecutables, id)) in
      RecognizeErrors(notExecutables, candidates, installed, errors, onBefore).errors
  {
    TwoInstallersCount(notExecutables, id);
    var i :| 0 <= i < |notExecutables| && InstallerOf(notExecutables[i], id);
    var ids := DuplicateIds(notExecutables);
    assert notExecutables[i] in notExecutables;
    var k :| 0 <= k < |ids| && ids[k] == id;
    RecognizeErrorsReportsDuplicates(notExecutables, candidates, installed, errors, onBefore);
    var errs := RecognizeErrors(notExecutables, candidates, installed, errors, onBefore).errors;
    assert errs[|errors| + k] == DuplicatedInstaller(id, InstallersFor(notExecutables, id));
  }

  /** A stuck upgrade patch with no base version is reported as `MissingVersion`. */
  lemma RecognizeErrorsReportsMissingVersion(notExecutables: seq<Patch>, candidates: seq<Patch>, installed: seq<Descriptor>,
                                             errors: seq<ErrorRecord>, onBefore: bool, x: Patch)
    requires x in notExecutables && x.kind.Upgrade?
    requires !HasBaseVersion(x, installed)
    ensures MissingVersion(x) in RecognizeErrors(notExecutables, candidates, installed, errors, onBefore).errors
  {
    var ids := DuplicateIds(notExecutables);
    var sw := Swept(notExecutables, candidates);
    RemoveDuplicatesKeeps(ids, notExecutables, Sweep(notExecutables, candidates), x);
    var cr := ClassifyRemaining(sw.notExecutables, installed, onBefore);
    assert MissingVersion(x) in cr;
    assert RecognizeErrors(notExecutables, candidates, installed, errors, onBefore).errors ==
      errors + DuplicateRecords(ids, notExecutables) + cr;
  }

  /**
   * Base versions are read from successful versions only, so a list that
   * only grows and keeps every successful version offers the same ones.
   */
  lemma BaseVersionKept(p: Patch, installed: seq<Descriptor>, installed': seq<Descriptor>)
    requires p.kind.Upgrade?
    requires Extends(installed, installed') && KeepsVersions(installed, installed')
    ensures HasBaseVersion(p, installed') <==> HasBaseVersion(p, installed)
  {
    if HasBaseVersion(p, installed') {
      var i :| 0 <= i < |installed'| && installed'[i].componentId == p.componentId &&
        LessOpt(installed'[i].version, p.version) && IsInInterval(p.kind.boundary, installed'[i].version);
      assert i < |installed|;
      assert installed[i].componentId == p.componentId && installed[i].version == installed'[i].version;
    }
    if HasBaseVersion(p, installed) {
      var i :| 0 <= i < |installed| && installed[i].componentId == p.componentId &&
        LessOpt(installed[i].version, p.version) && IsInInterval(p.kind.boundary, installed[i].version);
      assert installed'[i].componentId == p.componentId && installed'[i].version == installed[i].version;
    }
  }

  /** A stuck installer that is the only stuck installer of its component is reported as not executable in the phase. */
  lemma RecognizeErrorsReportsStuck(notExecutables: seq<Patch>, candidates: seq<Patch>, installed: seq<Descriptor>,
                                    errors: seq<ErrorRecord>, onBefore: bool, x: Patch)
    requires x in notExecutables && x.kind.Installer?
    requires |InstallersFor(notExecutables, x.componentId)| <= 1
    ensures CannotExecute(x, onBefore) in RecognizeErrors(notExecutables, candidates, installed, errors, onBefore).errors
  {
    var ids := DuplicateIds(notExecutables);
    var sw := Swept(notExecutables, candidates);
    assert x.componentId !in ids;
    RemoveDuplicatesKeeps(ids, notExecutables, Sweep(notExecutables, candidates), x);
    var cr := ClassifyRemaining(sw.notExecutables, installed, onBefore);
    assert CannotExecute(x, onBefore) in cr;
    assert RecognizeErrors(notExecutables, candidates, installed, errors, onBefore).errors ==
      errors + DuplicateRecords(ids, notExecutables) + cr;
  }

  /**
   * Before repository start, the only patches that leave the candidate
   * list are stuck installers reported as duplicates.
   */
  lemma RecognizeErrorsBeforeAccounts(notExecutables: seq<Patch>, candidates: seq<Patch>, installed: seq<Descriptor>,
                                      errors: seq<ErrorRecord>, x: Patch)
    ensures var r := RecognizeErrors(notExecutables, candidates, installed, errors, true);
      && (x in r.candidates ==> x in candidates)
      && (x in candidates && x !in r.candidates ==> x in notExecutables && DuplicateReported(x, r.errors))
  {
    var ids := DuplicateIds(notExecutables);
    var dr := DuplicateRecords(ids, notExecutables);
    var sw := Swept(notExecutables, candidates);
    var r := RecognizeErrors(notExecutables, candidates, installed, errors, true);
    RemoveDuplicatesAccounts(ids, notExecutables, Sweep(notExecutables, candidates), x);
    var cr := ClassifyRemaining(sw.notExecutables, installed, true);
    assert r.errors == errors + dr + cr;
    if x in candidates && x !in r.candidates {
      var j :| 0 <= j < |ids| && ids[j] == x.componentId;
      InstallersForMembership(notExecutables, ids[j], x);
      assert r.errors[|errors| + j] == dr[j];
    }
  }

  /** Filtering keeps all occurrences of the installers it selects and none of the rest. */
  lemma {:induction false} InstallersForOccurrences(s: seq<Patch>, id: ComponentId, x: Patch)
    ensures multiset(InstallersFor(s, id))[x] == if InstallerOf(x, id) then multiset(s)[x] else 0
  {
    if |s| > 0 {
      assert s == [s[0]] + s[1..];
      InstallersForOccurrences(s[1..], id, x);
    }
  }

  /** Removing a patch that is not an installer of `id` keeps the installers of `id`. */
  lemma {:induction false} InstallersForRemove(s: seq<Patch>, p: Patch, id: ComponentId)
    requires !InstallerOf(p, id)
    ensures InstallersFor(Remove(s, p), id) == InstallersFor(s, id)
  {
    if |s| > 0 && s[0] != p {
      assert Remove(s, p) == [s[0]] + Remove(s[1..], p);
      InstallersForRemove(s[1..], p, id);
      assert ([s[0]] + Remove(s[1..], p))[1..] == Remove(s[1..], p);
    }
  }

  lemma {:induction false} InstallersForRemoveAll(s: seq<Patch>, xs: seq<Patch>, id: ComponentId)
    requires forall k :: 0 <= k < |xs| ==> !InstallerOf(xs[k], id)
    ensures InstallersFor(RemoveAll(s, xs), id) == InstallersFor(s, id)
    decreases |xs|
  {
    if |xs| > 0 {
      InstallersForRemove(s, xs[0], id);
      assert forall k :: 0 <= k < |xs[1..]| ==> xs[1..][k] == xs[k + 1];
      InstallersForRemoveAll(Remove(s, xs[0]), xs[1..], id);
    }
  }

  /** A list that holds no patch more often than another holds no more installers of a component either. */
  lemma InstallersForSubMultiset(a: seq<Patch>, b: seq<Patch>, id: ComponentId)
    requires multiset(a) <= multiset(b)
    ensures |InstallersFor(a, id)| <= |InstallersFor(b, id)|
  {
    forall y
      ensures multiset(InstallersFor(a, id))[y] <= multiset(InstallersFor(b, id))[y]
    {
      InstallersForOccurrences(a, id, y);
      InstallersForOccurrences(b, id, y);
    }
    SubMultisetLength(InstallersFor(a, id), InstallersFor(b, id));
  }

  /** Every patch of `ps` is an installer. */
  predicate AllInstallers(ps: seq<Patch>) {
    forall k :: 0 <= k < |ps| ==> ps[k].kind.Installer?
  }

  /**
   * The shape of the two lists at patch `x` during the duplicate loop when
   * both start as the same list `stuck` of installers: the candidates have
   * lost exactly the installers of the components handled so far, and once
   * one component has been handled the stuck list holds the others.
   */
  ghost predicate ShapeAt(stuck: seq<Patch>, sw: Sweep, handled: seq<ComponentId>, x: Patch) {
    && multiset(sw.candidates)[x] == (if x.componentId in handled then 0 else multiset(stuck)[x])
    && (handled == [] ==> sw.notExecutables == stuck)
    && (handled != [] ==> (x in sw.notExecutables <==> x in stuck && x.componentId !in handled))
  }

  lemma DropInstallersCandidates(stuck: seq<Patch>, candidates: seq<Patch>, handled: seq<ComponentId>, d: ComponentId, x: Patch)
    requires AllInstallers(stuck)
    requires d !in handled
    requires multiset(candidates)[x] == if x.componentId in handled then 0 else multiset(stuck)[x]
    ensures multiset(RemoveAll(candidates, InstallersFor(stuck, d)))[x] ==
      if x.componentId in handled + [d] then 0 else multiset(stuck)[x]
  {
    var faulty := InstallersFor(stuck, d);
    var r := RemoveAll(candidates, faulty);
    RemoveAllCount(candidates, faulty);
    InstallersForOccurrences(stuck, d, x);
  }

  lemma DropInstallersStuck(stuck: seq<Patch>, notExecutables: seq<Patch>, handled: seq<ComponentId>, d: ComponentId, x: Patch)
    requires AllInstallers(stuck)
    requires handled == [] ==> notExecutables == stuck
    requires handled != [] ==> (x in notExecutables <==> x in stuck && x.componentId !in handled)
    ensures x in Except(notExecutables, InstallersFor(stuck, d)) <==> x in stuck && x.componentId !in handled + [d]
  {
    var faulty := InstallersFor(stuck, d);
    InstallersForMembership(stuck, d, x);
    ExceptMembership(notExecutables, faulty, x);
    if x in stuck {
      var k :| 0 <= k < |stuck| && stuck[k] == x;
    }
  }

  /** One round of the duplicate loop moves one more component into the handled ones. */
  lemma DropInstallersShape(stuck: seq<Patch>, sw: Sweep, handled: seq<ComponentId>, d: ComponentId, x: Patch)
    requires AllInstallers(stuck)
    requires d !in handled
    requires ShapeAt(stuck, sw, handled, x)
    ensures ShapeAt(stuck, DropInstallers(stuck, sw, d), handled + [d], x)
  {
    DropInstallersCandidates(stuck, sw.candidates, handled, d, x);
    DropInstallersStuck(stuck, sw.notExecutables, handled, d, x);
    ExceptThenRemoveAll(sw.notExecutables, InstallersFor(stuck, d));
  }

  lemma {:induction false} RemoveDuplicatesShape(ids: seq<ComponentId>, stuck: seq<Patch>, sw: Sweep, handled: seq<ComponentId>, x: Patch)
    requires AllInstallers(stuck)
    requires Distinct(ids) && forall k :: 0 <= k < |ids| ==> ids[k] !in handled
    requires ShapeAt(stuck, sw, handled, x)
    ensures ShapeAt(stuck, RemoveDuplicates(ids, stuck, sw), handled + ids, x)
    decreases |ids|
  {
    if |ids| == 0 {
      assert handled + ids == handled;
    } else {
      var next := DropInstallers(stuck, sw, ids[0]);
      DropInstallersShape(stuck, sw, handled, ids[0], x);
      var handled' := handled + [ids[0]];
      forall k | 0 <= k < |ids[1..]|
        ensures ids[1..][k] !in handled'
      {
        assert ids[1..][k] == ids[k + 1];
      }
      RemoveDuplicatesShape(ids[1..], stuck, next, handled', x);
      assert handled' + ids[1..] == handled + ids;
    }
  }

  /** After at least one round, the stuck list holds no patch twice (`Except` drops repeats). */
  lemma {:induction false} RemoveDuplicatesDistinct(ids: seq<ComponentId>, stuck: seq<Patch>, sw: Sweep)
    requires |ids| > 0
    ensures Distinct(RemoveDuplicates(ids, stuck, sw).notExecutables)
    decreases |ids|
  {
    var next := DropInstallers(stuck, sw, ids[0]);
    assert RemoveDuplicates(ids, stuck, sw) == RemoveDuplicates(ids[1..], stuck, next);
    if |ids| == 1 {
      var faulty := InstallersFor(stuck, ids[0]);
      ExceptThenRemoveAll(sw.notExecutables, faulty);
      ExceptDistinct(sw.notExecutables, faulty);
    } else {
      RemoveDuplicatesDistinct(ids[1..], stuck, next);
    }
  }

  /**
   * After repository start the stuck list is the candidate list itself; when
   * it holds only installers, `RecognizeErrors` leaves it empty.
   */
  lemma RecognizeErrorsAfterClears(stuck: seq<Patch>, installed: seq<Descriptor>, errors: seq<ErrorRecord>)
    requires AllInstallers(stuck)
    ensures |RecognizeErrors(stuck, stuck, installed, errors, false).candidates| == 0
  {
    var ids := DuplicateIds(stuck);
    var sw := RemoveDuplicates(ids, stuck, Sweep(stuck, stuck));
    var r := RemoveAll(sw.candidates, sw.notExecutables);
    assert r == RecognizeErrors(stuck, stuck, installed, errors, false).candidates;
    if |ids| > 0 {
      RemoveDuplicatesDistinct(ids, stuck, Sweep(stuck, stuck));
    }
    forall x
      ensures multiset(r)[x] == 0
    {
      RemoveDuplicatesShape(ids, stuck, Sweep(stuck, stuck), [], x);
      assert [] + ids == ids;
      StuckInstallerCleared(stuck, ids, sw, x);
    }
    assert multiset(r) == multiset{};
  }

  lemma StuckInstallerCleared(stuck: seq<Patch>, ids: seq<ComponentId>, sw: Sweep, x: Patch)
    requires AllInstallers(stuck)
    requires ids == DuplicateIds(stuck)
    requires ShapeAt(stuck, sw, ids, x)
    requires ids != [] ==> Distinct(sw.notExecutables)
    ensures multiset(RemoveAll(sw.candidates, sw.notExecutables))[x] == 0
  {
    RemoveAllCount(sw.candidates, sw.notExecutables);
    if x in stuck && x.componentId !in ids {
      var k :| 0 <= k < |stuck| && stuck[k] == x;
      var f := InstallersFor(stuck, x.componentId);
      InstallersForOccurrences(stuck, x.componentId, x);
      OccurrencesBound(f, x);
      if ids != [] {
        DistinctOccursOnce(sw.notExecutables, x);
      }
    } else if x !in stuck {
      assert multiset(stuck)[x] == 0;
    }
  }
}

=== FILE: common.dfy ===
/** The optional value and the success-or-exception result that every module of the model shares. */
module Common {

  /** A nullable reference: `None` stands for C#'s `null`. */
  datatype Option<+T> = None | Some(value: T)

  /** The value of a computation, or the exception that escaped it. */
  datatype Result<+T, +E> = Success(value: T) | Failure(error: E)
}

=== FILE: engine.dfy ===
/**
 * The two execution phases of the patch manager, `ExecuteOnBefore` and
 * `ExecuteOnAfter`: repeated passes over the patches still to execute,
 * each pass checking every patch against the current state, until a pass
 * executes nothing or nothing is left; the leftovers go to
 * `RecognizeErrors`.
 */
module Engine {
  import opened Common
  import opened Model
  import opened Lists
  import opened ComponentState
  import opened Prerequisites
  import opened Classifier

  /**
   * `AsWritten` creates the initial descriptor after repository start only
   * for a patch without a before-start action; `Corrected` creates it for
   * every patch it executes (see the findings of the README).
   */
  datatype Variant = AsWritten | Corrected

  datatype Phase = OnBefore | OnAfter(variant: Variant)

  /** The mutable state a phase works on: the candidate list, the installed components, the context's error list. */
  datatype Run = Run(candidates: seq<Patch>, installed: seq<Descriptor>, errors: seq<ErrorRecord>)

  /** What one iteration of the `foreach` yields: the new state and whether the patch joins `executed`. */
  datatype Stepped = Stepped(run: Run, handled: bool)

  /** What one pass yields: the final state and the `executed` list, in order. */
  datatype Passed = Passed(run: Run, executed: seq<Patch>)

  /** What the `while (true)` loop yields: the patches still in `toExec` and the final state. */
  datatype Looped = Looped(rest: seq<Patch>, run: Run)

  /** The prerequisite check of the phase. */
  function Check(phase: Phase, p: Patch, st: Run): Result<Verdict, Abort> {
    match phase
    case OnBefore => CheckBefore(p, st.candidates, st.installed)
    case OnAfter(_) => CheckAfter(p, st.candidates, st.installed)
  }

  /** Before repository start a patch without a before-start action is passed over without a check. */
  predicate Skipped(phase: Phase, p: Patch) {
    phase.OnBefore? && p.beforeStart.NoAction?
  }

  /** A patch that a pass leaves where it is, with nothing changed. */
  predicate Blocked(phase: Phase, p: Patch, st: Run) {
    Skipped(phase, p) || Check(phase, p, st) == Success(NotYet)
  }

  /** The action the phase invokes. */
  function ActionOf(phase: Phase, p: Patch): ActionSlot {
    if phase.OnBefore? then p.beforeStart else p.afterStart
  }

  /**
   * What invoking an action yields. A simulation invokes nothing and counts
   * as success; after repository start a missing action is skipped
   * (`patch.Action?.Invoke`).
   */
  function Performed(slot: ActionSlot, isSimulation: bool): Outcome {
    if isSimulation then Succeeds
    else match slot
      case NoAction => Succeeds
      case Runs(outcome) => outcome
  }

  /** The execution result recorded for an outcome in the phase. */
  function Recorded(phase: Phase, outcome: Outcome): ExecutionResult {
    match (phase, outcome)
    case (OnBefore, Succeeds) => SuccessfulBefore
    case (OnBefore, Throws(_)) => FaultyBefore
    case (OnAfter(_), Succeeds) => Successful
    case (OnAfter(_), Throws(_)) => Faulty
  }

  /** Whether the phase creates the initial descriptor before executing `p`. */
  predicate Prepares(phase: Phase, p: Patch) {
    match phase
    case OnBefore => true
    case OnAfter(variant) => variant == Corrected || p.beforeStart.NoAction?
  }

  /** The error record of a throwing action. */
  function ExecutionError(phase: Phase, p: Patch, message: string): ErrorRecord {
    if phase.OnBefore? then ExecutionErrorOnBefore(p, message) else ExecutionErrorOnAfter(p, message)
  }

  /**
   * Executing an eligible patch: create the initial descriptor (if the
   * phase does), invoke the action, record the outcome. A throwing action
   * is reported; before repository start it also drops the patch from the
   * candidates. A missing descriptor aborts the phase.
   */
  function Attempt(phase: Phase, p: Patch, st: Run, isSimulation: bool): (r: Result<Run, Abort>)
    ensures r.Failure? <==> !Prepares(phase, p) && FindIndex(st.installed, p.componentId).None?
    ensures r.Failure? ==> r.error == DescriptorMissing(p)
    ensures r.Success? ==>
      var outcome := Performed(ActionOf(phase, p), isSimulation);
      && |r.value.installed| >= |st.installed|
      && FindIndex(r.value.installed, p.componentId).Some?
      && (outcome.Succeeds? ==> r.value.errors == st.errors && r.value.candidates == st.candidates)
      && (outcome.Throws? ==> r.value.errors == st.errors + [ExecutionError(phase, p, outcome.message)])
      && (outcome.Throws? && phase.OnBefore? ==> r.value.candidates == Remove(st.candidates, p))
      && (phase.OnAfter? ==> r.value.candidates == st.candidates)
    ensures r.Success? ==>
      |r.value.installed| == |st.installed| + (if FindIndex(st.installed, p.componentId).None? then 1 else 0)
    ensures r.Success? ==>
      var i := FindIndex(r.value.installed, p.componentId).value;
      var before := if i < |st.installed| then st.installed[i]
                    else Descriptor(p.componentId, None, None, None, p.description, p.dependencies);
      && Transitioned(before, r.value.installed[i], p.version, Recorded(phase, Performed(ActionOf(phase, p), isSimulation)))
      && forall j :: 0 <= j < |st.installed| && j != i ==> r.value.installed[j] == st.installed[j]
  {
    var outcome := Performed(ActionOf(phase, p), isSimulation);
    var installed := if Prepares(phase, p) then CreateInitialState(p, st.installed) else st.installed;
    match ModifyState(p, installed, Recorded(phase, outcome))
    case Failure(e) => Failure(e)
    case Success(installed') =>
      CreateInitialStateFindIndex(p, st.installed);
      ModifyStateFindIndex(p, installed, Recorded(phase, outcome));
      match outcome
      case Succeeds => Success(st.(installed := installed'))
      case Throws(message) =>
        var candidates := if phase.OnBefore? then Remove(st.candidates, p) else st.candidates;
        Success(Run(candidates, installed', st.errors + [ExecutionError(phase, p, message)]))
  }

  /** One iteration of the `foreach` over `toExec`; a patch joins `executed` when it was executed or found irrelevant. */
  function Step(phase: Phase, p: Patch, st: Run, isSimulation: bool): (r: Result<Stepped, Abort>)
    ensures (r.Success? && !r.value.handled) <==> Blocked(phase, p, st)
    ensures r.Success? && !r.value.handled ==> r.value.run == st
    ensures r.Success? && r.value.handled ==> !Skipped(phase, p) && p.kind.Installer?
    ensures r.Failure? ==> !Skipped(phase, p)
    ensures !Skipped(phase, p) && p.kind.Upgrade? ==> r == Failure(NotImplemented(p))
    ensures p.kind.Installer? && TwoInstallers(st.candidates, p.componentId) ==> r == Success(Stepped(st, false))
    ensures r.Success? && phase.OnAfter? ==> r.value.run.candidates == st.candidates
    ensures !Skipped(phase, p) && Check(phase, p, st) == Success(Irrelevant) ==> r == Success(Stepped(st, true))
    ensures !Skipped(phase, p) && Check(phase, p, st) == Success(Eligible) ==>
      var a := Attempt(phase, p, st, isSimulation);
      && (a.Success? ==> r == Success(Stepped(a.value, true)))
      && (a.Failure? ==> r == Failure(a.error))
  {
    if Skipped(phase, p) then Success(Stepped(st, false))
    else match Check(phase, p, st)
      case Failure(e) => Failure(e)
      case Success(NotYet) => Success(Stepped(st, false))
      case Success(Irrelevant) => Success(Stepped(st, true))
      case Success(Eligible) =>
        match Attempt(phase, p, st, isSimulation)
        case Failure(e) => Failure(e)
        case Success(st') => Success(Stepped(st', true))
  }

  /**
   * One pass of the `foreach` over `ps`, left to right, each patch seeing
   * the state the previous ones left: the final state and the `executed`
   * list, in order. The phase stays active exactly when `executed` is not
   * empty.
   */
  function Pass(phase: Phase, ps: seq<Patch>, st: Run, isSimulation: bool): (r: Result<Passed, Abort>)
    ensures r.Success? ==> forall k :: 0 <= k < |r.value.executed| ==> r.value.executed[k] in ps && !Skipped(phase, r.value.executed[k])
    ensures r.Success? ==> forall k :: 0 <= k < |ps| ==> ps[k].kind.Installer? || Skipped(phase, ps[k])
    ensures r.Success? && |r.value.executed| == 0 ==>
      r.value.run == st && forall k :: 0 <= k < |ps| ==> Blocked(phase, ps[k], st)
    ensures r.Success? && phase.OnAfter? ==> r.value.run.candidates == st.candidates
    decreases |ps|
  {
    if |ps| == 0 then Success(Passed(st, []))
    else
      match Step(phase, ps[0], st, isSimulation)
      case Failure(e) => Failure(e)
      case Success(Stepped(st1, handled)) =>
        match Pass(phase, ps[1..], st1, isSimulation)
        case Failure(e) => Failure(e)
        case Success(Passed(st2, executed)) =>
          assert forall k :: 1 <= k < |ps| ==> ps[k] == ps[1..][k - 1];
          Success(Passed(st2, if handled then [ps[0]] + executed else executed))
  }

  /**
   * The `while (true)` loop: passes over `toExec` until it is empty or a
   * pass executes nothing; executed patches are removed from `toExec` after
   * each pass. After repository start `toExec` is the candidate list itself,
   * so the removals shrink the candidates too.
   */
  function Loop(phase: Phase, toExec: seq<Patch>, st: Run, isSimulation: bool): (r: Result<Looped, Abort>)
    requires phase.OnAfter? ==> st.candidates == toExec
    ensures r.Success? ==> forall k :: 0 <= k < |r.value.rest| ==> r.value.rest[k] in toExec
    ensures r.Success? && |r.value.rest| > 0 ==> forall k :: 0 <= k < |r.value.rest| ==> Blocked(phase, r.value.rest[k], r.value.run)
    ensures r.Success? && phase.OnAfter? ==> r.value.run.candidates == r.value.rest
    ensures r.Success? && |toExec| > 0 ==> forall k :: 0 <= k < |toExec| ==> toExec[k].kind.Installer? || Skipped(phase, toExec[k])
    decreases |toExec|
  {
    match Pass(phase, toExec, st, isSimulation)
    case Failure(e) => Failure(e)
    case Success(Passed(st1, executed)) =>
      var rest := RemoveAll(toExec, executed);
      var st2 := if phase.OnAfter? then st1.(candidates := rest) else st1;
      if |rest| == 0 || |executed| == 0 then Success(Looped(rest, st2))
      else
        match Loop(phase, rest, st2, isSimulation)
        case Failure(e) => Failure(e)
        case Success(Looped(rem, st3)) =>
          forall k | 0 <= k < |rem|
            ensures rem[k] in toExec
          {
            RemoveAllMembership(toExec, executed, rem[k]);
          }
          Success(Looped(rem, st3))
  }

  /**
   * `ExecuteOnBefore`: the loop over a copy of the candidates, then
   * `RecognizeErrors` on whatever is left. Candidates the loop does not
   * drop stay for the after-start phase.
   */
  function ExecuteOnBefore(st: Run, isSimulation: bool): (r: Result<Run, Abort>)
    ensures r.Success? ==> forall k :: 0 <= k < |st.candidates| ==>
      st.candidates[k].kind.Installer? || st.candidates[k].beforeStart.NoAction?
  {
    match Loop(OnBefore, st.candidates, st, isSimulation)
    case Failure(e) => Failure(e)
    case Success(Looped(rest, st1)) =>
      if |rest| == 0 then Success(st1)
      else
        var recognized := RecognizeErrors(rest, st1.candidates, st1.installed, st1.errors, true);
        Success(Run(recognized.candidates, st1.installed, recognized.errors))
  }

  /**
   * `ExecuteOnAfter`: the loop over the candidate list itself, then
   * `RecognizeErrors` on whatever is left. It either ends the phase with an
   * exception or leaves no candidate behind.
   */
  function ExecuteOnAfter(st: Run, isSimulation: bool, variant: Variant): (r: Result<Run, Abort>)
    ensures r.Success? ==> AllInstallers(st.candidates)
    ensures r.Success? ==> r.value.candidates == []
  {
    match Loop(OnAfter(variant), st.candidates, st, isSimulation)
    case Failure(e) => Failure(e)
    case Success(Looped(rest, st1)) =>
      if |rest| == 0 then Success(st1)
      else
        forall k | 0 <= k < |rest|
          ensures rest[k].kind.Installer?
        {
        }
        RecognizeErrorsAfterClears(rest, st1.installed, st1.errors);
        var recognized := RecognizeErrors(rest, st1.candidates, st1.installed, st1.errors, false);
        Success(Run(recognized.candidates, st1.installed, recognized.errors))
  }

  /**
   * What a phase never undoes: descriptors are only appended and keep their
   * components, distinct components stay distinct, reported errors stay
   * reported, and before repository start no successful version is set or
   * cleared.
   */
  ghost predicate Progressed(phase: Phase, st: Run, st': Run) {
    && Extends(st.installed, st'.installed)
    && (UniqueIds(st.installed) ==> UniqueIds(st'.installed))
    && |st.errors| <= |st'.errors| && st'.errors[..|st.errors|] == st.errors
    && (phase.OnBefore? ==> KeepsVersions(st.installed, st'.installed))
  }

  lemma ProgressedTransitive(phase: Phase, a: Run, b: Run, c: Run)
    requires Progressed(phase, a, b) && Progressed(phase, b, c)
    ensures Progressed(phase, a, c)
  {
    ExtendsTransitive(a.installed, b.installed, c.installed);
    if phase.OnBefore? {
      KeepsVersionsTransitive(a.installed, b.installed, c.installed);
    }
    assert c.errors[..|a.errors|] == c.errors[..|b.errors|][..|a.errors|];
  }

  lemma {:induction false} AttemptProgresses(phase: Phase, p: Patch, st: Run, isSimulation: bool)
    requires Attempt(phase, p, st, isSimulation).Success?
    ensures Progressed(phase, st, Attempt(phase, p, st, isSimulation).value)
  {
    var outcome := Performed(ActionOf(phase, p), isSimulation);
    var installed := if Prepares(phase, p) then CreateInitialState(p, st.installed) else st.installed;
    var result := Recorded(phase, outcome);
    var st' := Attempt(phase, p, st, isSimulation).value;
    assert st'.installed == ModifyState(p, installed, result).value;
    ModifyStateKeepsShape(p, installed, result);
    if Prepares(phase, p) {
      CreateInitialStateKeepsShape(p, st.installed);
      ExtendsTransitive(st.installed, installed, st'.installed);
      if phase.OnBefore? {
        KeepsVersionsTransitive(st.installed, installed, st'.installed);
      }
    }
    assert st'.errors[..|st.errors|] == st.errors;
  }

  lemma StepProgresses(phase: Phase, p: Patch, st: Run, isSimulation: bool)
    requires Step(phase, p, st, isSimulation).Success?
    ensures Progressed(phase, st, Step(phase, p, st, isSimulation).value.run)
  {
    if Step(phase, p, st, isSimulation).value.handled && Check(phase, p, st) == Success(Eligible) {
      AttemptProgresses(phase, p, st, isSimulation);
    } else {
      assert st.errors[..|st.errors|] == st.errors;
    }
  }

  lemma {:induction false} PassProgresses(phase: Phase, ps: seq<Patch>, st: Run, isSimulation: bool)
    requires Pass(phase, ps, st, isSimulation).Success?
    ensures Progressed(phase, st, Pass(phase, ps, st, isSimulation).value.run)
    decreases |ps|
  {
    if |ps| == 0 {
      assert st.errors[..|st.errors|] == st.errors;
    } else {
      var st1 := Step(phase, ps[0], st, isSimulation).value.run;
      StepProgresses(phase, ps[0], st, isSimulation);
      PassProgresses(phase, ps[1..], st1, isSimulation);
      ProgressedTransitive(phase, st, st1, Pass(phase, ps[1..], st1, isSimulation).value.run);
    }
  }

  lemma {:induction false} LoopProgresses(phase: Phase, toExec: seq<Patch>, st: Run, isSimulation: bool)
    requires phase.OnAfter? ==> st.candidates == toExec
    requires Loop(phase, toExec, st, isSimulation).Success?
    ensures Progressed(phase, st, Loop(phase, toExec, st, isSimulation).value.run)
    decreases |toExec|
  {
    var Passed(st1, executed) := Pass(phase, toExec, st, isSimulation).value;
    PassProgresses(phase, toExec, st, isSimulation);
    var rest := RemoveAll(toExec, executed);
    var st2 := if phase.OnAfter? then st1.(candidates := rest) else st1;
    if !(|rest| == 0 || |executed| == 0) {
      LoopProgresses(phase, rest, st2, isSimulation);
      ProgressedTransitive(phase, st, st2, Loop(phase, rest, st2, isSimulation).value.run);
    }
  }

  /** The phase before repository start keeps the invariants of `Progressed`. */
  lemma ExecuteOnBeforeProgresses(st: Run, isSimulation: bool)
    requires ExecuteOnBefore(st, isSimulation).Success?
    ensures Progressed(OnBefore, st, ExecuteOnBefore(st, isSimulation).value)
  {
    LoopProgresses(OnBefore, st.candidates, st, isSimulation);
    var Looped(rest, st1) := Loop(OnBefore, st.candidates, st, isSimulation).value;
    if |rest| > 0 {
      var e := RecognizeErrors(rest, st1.candidates, st1.installed, st1.errors, true).errors;
      assert ExecuteOnBefore(st, isSimulation).value == Run(RecognizeErrors(rest, st1.candidates, st1.installed, st1.errors, true).candidates, st1.installed, e);
      assert e[..|st.errors|] == e[..|st1.errors|][..|st.errors|];
    }
  }

  /** The phase after repository start keeps the invariants of `Progressed`. */
  lemma ExecuteOnAfterProgresses(st: Run, isSimulation: bool, variant: Variant)
    requires ExecuteOnAfter(st, isSimulation, variant).Success?
    ensures Progressed(OnAfter(variant), st, ExecuteOnAfter(st, isSimulation, variant).value)
  {
    LoopProgresses(OnAfter(variant), st.candidates, st, isSimulation);
    var Looped(rest, st1) := Loop(OnAfter(variant), st.candidates, st, isSimulation).value;
    if |rest| > 0 {
      var e := RecognizeErrors(rest, st1.candidates, st1.installed, st1.errors, false).errors;
      assert ExecuteOnAfter(st, isSimulation, variant).value == Run(RecognizeErrors(rest, st1.candidates, st1.installed, st1.errors, false).candidates, st1.installed, e);
      assert e[..|st.errors|] == e[..|st1.errors|][..|st.errors|];
    }
  }

  /** A patch the phase can pass over or check without an exception from the check itself. */
  predicate Checkable(phase: Phase, p: Patch) {
    p.kind.Installer? || Skipped(phase, p)
  }

  /** Every step of a phase that always creates the initial descriptor succeeds on a checkable patch. */
  lemma StepSucceeds(phase: Phase, p: Patch, st: Run, isSimulation: bool)
    requires phase != OnAfter(AsWritten)
    requires Checkable(phase, p)
    ensures Step(phase, p, st, isSimulation).Success?
  {
    if !Skipped(phase, p) && Check(phase, p, st) == Success(Eligible) {
      assert Prepares(phase, p);
    }
  }

  lemma {:induction false} PassSucceeds(phase: Phase, ps: seq<Patch>, st: Run, isSimulation: bool)
    requires phase != OnAfter(AsWritten)
    requires forall k :: 0 <= k < |ps| ==> Checkable(phase, ps[k])
    ensures Pass(phase, ps, st, isSimulation).Success?
    decreases |ps|
  {
    if |ps| > 0 {
      StepSucceeds(phase, ps[0], st, isSimulation);
      assert forall k :: 0 <= k < |ps[1..]| ==> ps[1..][k] == ps[k + 1];
      PassSucceeds(phase, ps[1..], Step(phase, ps[0], st, isSimulation).value.run, isSimulation);
    }
  }

  lemma {:induction false} LoopSucceeds(phase: Phase, toExec: seq<Patch>, st: Run, isSimulation: bool)
    requires phase != OnAfter(AsWritten)
    requires phase.OnAfter? ==> st.candidates == toExec
    requires forall k :: 0 <= k < |toExec| ==> Checkable(phase, toExec[k])
    ensures Loop(phase, toExec, st, isSimulation).Success?
    decreases |toExec|
  {
    PassSucceeds(phase, toExec, st, isSimulation);
    var Passed(st1, executed) := Pass(phase, toExec, st, isSimulation).value;
    var rest := RemoveAll(toExec, executed);
    var st2 := if phase.OnAfter? then st1.(candidates := rest) else st1;
    if !(|rest| == 0 || |executed| == 0) {
      forall k | 0 <= k < |rest|
        ensures Checkable(phase, rest[k])
      {
        RemoveAllMembership(toExec, executed, rest[k]);
      }
      LoopSucceeds(phase, rest, st2, isSimulation);
    }
  }

  /**
   * Before repository start the phase ends with an exception exactly when
   * some candidate with a before-start action is an upgrade patch.
   */
  lemma ExecuteOnBeforeAborts(st: Run, isSimulation: bool)
    ensures ExecuteOnBefore(st, isSimulation).Success? <==>
      forall k :: 0 <= k < |st.candidates| ==> Checkable(OnBefore, st.candidates[k])
  {
    if forall k :: 0 <= k < |st.candidates| ==> Checkable(OnBefore, st.candidates[k]) {
      LoopSucceeds(OnBefore, st.candidates, st, isSimulation);
    }
  }

  /**
   * With the corrected descriptor creation, the phase after repository
   * start ends with an exception exactly when an upgrade patch is among the
   * candidates.
   */
  lemma CorrectedAfterAborts(st: Run, isSimulation: bool)
    ensures ExecuteOnAfter(st, isSimulation, Corrected).Success? <==> AllInstallers(st.candidates)
  {
    if AllInstallers(st.candidates) {
      LoopSucceeds(OnAfter(Corrected), st.candidates, st, isSimulation);
    }
  }

  /** Where the code as written gets through a step, the corrected code takes the same step. */
  lemma StepAgrees(p: Patch, st: Run, isSimulation: bool)
    requires Step(OnAfter(AsWritten), p, st, isSimulation).Success?
    ensures Step(OnAfter(Corrected), p, st, isSimulation) == Step(OnAfter(AsWritten), p, st, isSimulation)
  {
    if Check(OnAfter(AsWritten), p, st) == Success(Eligible) && !Prepares(OnAfter(AsWritten), p) {
      assert CreateInitialState(p, st.installed) == st.installed;
    }
  }

  lemma {:induction false} PassAgrees(ps: seq<Patch>, st: Run, isSimulation: bool)
    requires Pass(OnAfter(AsWritten), ps, st, isSimulation).Success?
    ensures Pass(OnAfter(Corrected), ps, st, isSimulation) == Pass(OnAfter(AsWritten), ps, st, isSimulation)
    decreases |ps|
  {
    if |ps| > 0 {
      StepAgrees(ps[0], st, isSimulation);
      PassAgrees(ps[1..], Step(OnAfter(AsWritten), ps[0], st, isSimulation).value.run, isSimulation);
    }
  }

  lemma {:induction false} LoopAgrees(toExec: seq<Patch>, st: Run, isSimulation: bool)
    requires st.candidates == toExec
    requires Loop(OnAfter(AsWritten), toExec, st, isSimulation).Success?
    ensures Loop(OnAfter(Corrected), toExec, st, isSimulation) == Loop(OnAfter(AsWritten), toExec, st, isSimulation)
    decreases |toExec|
  {
    PassAgrees(toExec, st, isSimulation);
    var Passed(st1, executed) := Pass(OnAfter(AsWritten), toExec, st, isSimulation).value;
    var rest := RemoveAll(toExec, executed);
    if !(|rest| == 0 || |executed| == 0) {
      LoopAgrees(rest, st1.(candidates := rest), isSimulation);
    }
  }

  /**
   * The correction changes nothing where the code as written completes the
   * phase after repository start; it only replaces the exception.
   */
  lemma CorrectedExtendsAsWritten(st: Run, isSimulation: bool)
    requires ExecuteOnAfter(st, isSimulation, AsWritten).Success?
    ensures ExecuteOnAfter(st, isSimulation, Corrected) == ExecuteOnAfter(st, isSimulation, AsWritten)
  {
    LoopAgrees(st.candidates, st, isSimulation);
  }

  /**
   * A step leaves a component with two installers among the candidates
   * alone: the candidates keep both installers, its descriptors stay as
   * they are, and the patch joins `executed` only if it is not one of them.
   */
  lemma StepSparesDuplicated(phase: Phase, p: Patch, st: Run, isSimulation: bool, id: ComponentId)
    requires TwoInstallers(st.candidates, id)
    requires Step(phase, p, st, isSimulation).Success?
    ensures var Stepped(st', handled) := Step(phase, p, st, isSimulation).value;
      && TwoInstallers(st'.candidates, id)
      && Untouched(id, st.installed, st'.installed)
      && (handled ==> !InstallerOf(p, id))
  {
    var Stepped(st', handled) := Step(phase, p, st, isSimulation).value;
    if handled && Check(phase, p, st) == Success(Eligible) {
      assert p.componentId != id;
      var outcome := Performed(ActionOf(phase, p), isSimulation);
      var installed := if Prepares(phase, p) then CreateInitialState(p, st.installed) else st.installed;
      assert st'.installed == ModifyState(p, installed, Recorded(phase, outcome)).value;
      ModifyStateUntouched(p, installed, Recorded(phase, outcome), id);
      if Prepares(phase, p) {
        CreateInitialStateUntouched(p, st.installed, id);
        UntouchedTransitive(id, st.installed, installed, st'.installed);
      }
      InstallersForRemove(st.candidates, p, id);
      TwoInstallersCount(st.candidates, id);
      TwoInstallersCount(Remove(st.candidates, p), id);
    }
  }

  lemma {:induction false} PassSparesDuplicated(phase: Phase, ps: seq<Patch>, st: Run, isSimulation: bool, id: ComponentId)
    requires TwoInstallers(st.candidates, id)
    requires Pass(phase, ps, st, isSimulation).Success?
    ensures var Passed(st', executed) := Pass(phase, ps, st, isSimulation).value;
      && TwoInstallers(st'.candidates, id)
      && Untouched(id, st.installed, st'.installed)
      && forall k :: 0 <= k < |executed| ==> !InstallerOf(executed[k], id)
    decreases |ps|
  {
    if |ps| > 0 {
      var Stepped(st1, handled) := Step(phase, ps[0], st, isSimulation).value;
      StepSparesDuplicated(phase, ps[0], st, isSimulation, id);
      PassSparesDuplicated(phase, ps[1..], st1, isSimulation, id);
      var Passed(st2, executed) := Pass(phase, ps[1..], st1, isSimulation).value;
      UntouchedTransitive(id, st.installed, st1.installed, st2.installed);
      assert Pass(phase, ps, st, isSimulation).value == Passed(st2, if handled then [ps[0]] + executed else executed);
    }
  }

  lemma {:induction false} LoopSparesDuplicated(phase: Phase, toExec: seq<Patch>, st: Run, isSimulation: bool, id: ComponentId)
    requires phase.OnAfter? ==> st.candidates == toExec
    requires TwoInstallers(st.candidates, id)
    requires Loop(phase, toExec, st, isSimulation).Success?
    ensures TwoInstallers(Loop(phase, toExec, st, isSimulation).value.run.candidates, id)
    ensures Untouched(id, st.installed, Loop(phase, toExec, st, isSimulation).value.run.installed)
    ensures InstallersFor(Loop(phase, toExec, st, isSimulation).value.rest, id) == InstallersFor(toExec, id)
    decreases |toExec|
  {
    PassSparesDuplicated(phase, toExec, st, isSimulation, id);
    var Passed(st1, executed) := Pass(phase, toExec, st, isSimulation).value;
    var rest := RemoveAll(toExec, executed);
    var st2 := if phase.OnAfter? then st1.(candidates := rest) else st1;
    InstallersForRemoveAll(toExec, executed, id);
    if phase.OnAfter? {
      TwoInstallersCount(toExec, id);
      TwoInstallersCount(rest, id);
    }
    if !(|rest| == 0 || |executed| == 0) {
      LoopSparesDuplicated(phase, rest, st2, isSimulation, id);
      UntouchedTransitive(id, st.installed, st2.installed, Loop(phase, rest, st2, isSimulation).value.run.installed);
    }
  }

  /**
   * Duplicate installers are never executed: neither phase creates or
   * changes a descriptor of a component that has more than one installer
   * among the candidates.
   */
  lemma DuplicatedComponentUntouched(st: Run, isSimulation: bool, variant: Variant, id: ComponentId)
    requires TwoInstallers(st.candidates, id)
    ensures ExecuteOnBefore(st, isSimulation).Success? ==>
      Untouched(id, st.installed, ExecuteOnBefore(st, isSimulation).value.installed)
    ensures ExecuteOnAfter(st, isSimulation, variant).Success? ==>
      Untouched(id, st.installed, ExecuteOnAfter(st, isSimulation, variant).value.installed)
  {
    if Loop(OnBefore, st.candidates, st, isSimulation).Success? {
      LoopSparesDuplicated(OnBefore, st.candidates, st, isSimulation, id);
    }
    if Loop(OnAfter(variant), st.candidates, st, isSimulation).Success? {
      LoopSparesDuplicated(OnAfter(variant), st.candidates, st, isSimulation, id);
    }
  }

  /**
   * Two installers of one component among the candidates never run and both
   * end up in the phase's `DuplicatedInstaller` record for that component,
   * together with every other installer of it.
   */
  lemma ExecuteOnBeforeReportsDuplicates(st: Run, isSimulation: bool, id: ComponentId)
    requires TwoInstallers(st.candidates, id)
    ensures ExecuteOnBefore(st, isSimulation).Success? ==>
      DuplicatedInstaller(id, InstallersFor(st.candidates, id)) in ExecuteOnBefore(st, isSimulation).value.errors
  {
    if Loop(OnBefore, st.candidates, st, isSimulation).Success? {
      LoopSparesDuplicated(OnBefore, st.candidates, st, isSimulation, id);
      TwoInstallersCount(st.candidates, id);
      var Looped(rest, st1) := Loop(OnBefore, st.candidates, st, isSimulation).value;
      RecognizeErrorsReportsComponent(rest, st1.candidates, st1.installed, st1.errors, true, id);
    }
  }

  /** The same after repository start, in either variant. */
  lemma ExecuteOnAfterReportsDuplicates(st: Run, isSimulation: bool, variant: Variant, id: ComponentId)
    requires TwoInstallers(st.candidates, id)
    ensures ExecuteOnAfter(st, isSimulation, variant).Success? ==>
      DuplicatedInstaller(id, InstallersFor(st.candidates, id)) in ExecuteOnAfter(st, isSimulation, variant).value.errors
  {
    if Loop(OnAfter(variant), st.candidates, st, isSimulation).Success? {
      LoopSparesDuplicated(OnAfter(variant), st.candidates, st, isSimulation, id);
      TwoInstallersCount(st.candidates, id);
      var Looped(rest, st1) := Loop(OnAfter(variant), st.candidates, st, isSimulation).value;
      RecognizeErrorsReportsComponent(rest, st1.candidates, st1.installed, st1.errors, false, id);
    }
  }

  /**
   * Before repository start an upgrade patch without a before-start action
   * is never executed; when no installed version can serve as its base, it
   * is reported as `MissingVersion`.
   */
  lemma UpgradeWithoutBaseReported(st: Run, isSimulation: bool, x: Patch)
    requires x in st.candidates && x.kind.Upgrade? && x.beforeStart.NoAction?
    requires !HasBaseVersion(x, st.installed)
    ensures ExecuteOnBefore(st, isSimulation).Success? ==>
      MissingVersion(x) in ExecuteOnBefore(st, isSimulation).value.errors
  {
    if Loop(OnBefore, st.candidates, st, isSimulation).Success? {
      LoopRemainder(OnBefore, st.candidates, st, isSimulation, x);
      LoopProgresses(OnBefore, st.candidates, st, isSimulation);
      var Looped(rest, st1) := Loop(OnBefore, st.candidates, st, isSimulation).value;
      BaseVersionKept(x, st.installed, st1.installed);
      RecognizeErrorsReportsMissingVersion(rest, st1.candidates, st1.installed, st1.errors, true, x);
    }
  }

  /** Some `ExecutionErrorOnBefore` record names patch `x`. */
  ghost predicate FaultReported(x: Patch, errors: seq<ErrorRecord>) {
    exists k :: 0 <= k < |errors| && errors[k].ExecutionErrorOnBefore? && errors[k].patch == x
  }

  lemma FaultStaysReported(x: Patch, errors: seq<ErrorRecord>, errors': seq<ErrorRecord>)
    requires FaultReported(x, errors)
    requires |errors| <= |errors'| && errors'[..|errors|] == errors
    ensures FaultReported(x, errors')
  {
    var k :| 0 <= k < |errors| && errors[k].ExecutionErrorOnBefore? && errors[k].patch == x;
    assert errors'[k] == errors'[..|errors|][k];
  }

  /** Before repository start a step drops at most the patch it executed, and only after reporting its fault. */
  lemma StepAccounts(p: Patch, st: Run, isSimulation: bool, x: Patch)
    requires Step(OnBefore, p, st, isSimulation).Success?
    ensures var st' := Step(OnBefore, p, st, isSimulation).value.run;
      && (x in st'.candidates ==> x in st.candidates)
      && (x in st.candidates && x !in st'.candidates ==> FaultReported(x, st'.errors))
  {
    var st' := Step(OnBefore, p, st, isSimulation).value.run;
    if st' != st {
      RemoveMembership(st.candidates, p, x);
      if x in st.candidates && x !in st'.candidates {
        assert st'.errors[|st.errors|].patch == x;
      }
    }
  }

  lemma {:induction false} PassAccounts(ps: seq<Patch>, st: Run, isSimulation: bool, x: Patch)
    requires Pass(OnBefore, ps, st, isSimulation).Success?
    ensures var st' := Pass(OnBefore, ps, st, isSimulation).value.run;
      && (x in st'.candidates ==> x in st.candidates)
      && (x in st.candidates && x !in st'.candidates ==> FaultReported(x, st'.errors))
    decreases |ps|
  {
    if |ps| > 0 {
      var st1 := Step(OnBefore, ps[0], st, isSimulation).value.run;
      var st2 := Pass(OnBefore, ps[1..], st1, isSimulation).value.run;
      StepAccounts(ps[0], st, isSimulation, x);
      PassAccounts(ps[1..], st1, isSimulation, x);
      if x in st.candidates && x !in st1.candidates {
        PassProgresses(OnBefore, ps[1..], st1, isSimulation);
        FaultStaysReported(x, st1.errors, st2.errors);
      }
    }
  }

  lemma {:induction false} LoopAccounts(toExec: seq<Patch>, st: Run, isSimulation: bool, x: Patch)
    requires Loop(OnBefore, toExec, st, isSimulation).Success?
    ensures var st' := Loop(OnBefore, toExec, st, isSimulation).value.run;
      && (x in st'.candidates ==> x in st.candidates)
      && (x in st.candidates && x !in st'.candidates ==> FaultReported(x, st'.errors))
    decreases |toExec|
  {
    var Passed(st1, executed) := Pass(OnBefore, toExec, st, isSimulation).value;
    PassAccounts(toExec, st, isSimulation, x);
    var rest := RemoveAll(toExec, executed);
    if !(|rest| == 0 || |executed| == 0) {
      LoopAccounts(rest, st1, isSimulation, x);
      if x in st.candidates && x !in st1.candidates {
        LoopProgresses(OnBefore, rest, st1, isSimulation);
        FaultStaysReported(x, st1.errors, Loop(OnBefore, rest, st1, isSimulation).value.run.errors);
      }
    }
  }

  /**
   * Before repository start a candidate leaves the list only when it is
   * reported: its before-start action threw, or it is one of several
   * stuck installers of a component.
   */
  lemma ExecuteOnBeforeAccounts(st: Run, isSimulation: bool, x: Patch)
    requires ExecuteOnBefore(st, isSimulation).Success?
    ensures var st' := ExecuteOnBefore(st, isSimulation).value;
      && (x in st'.candidates ==> x in st.candidates)
      && (x in st.candidates && x !in st'.candidates ==> FaultReported(x, st'.errors) || DuplicateReported(x, st'.errors))
  {
    LoopAccounts(st.candidates, st, isSimulation, x);
    var Looped(rest, st1) := Loop(OnBefore, st.candidates, st, isSimulation).value;
    if |rest| > 0 {
      var r := RecognizeErrors(rest, st1.candidates, st1.installed, st1.errors, true);
      RecognizeErrorsBeforeAccounts(rest, st1.candidates, st1.installed, st1.errors, x);
      if x in st.candidates && x !in st1.candidates {
        FaultStaysReported(x, st1.errors, r.errors);
      }
    }
  }

  /** What the loop leaves is part of what it started with and still holds every patch the phase passes over. */
  lemma {:induction false} LoopRemainder(phase: Phase, toExec: seq<Patch>, st: Run, isSimulation: bool, x: Patch)
    requires phase.OnAfter? ==> st.candidates == toExec
    requires Loop(phase, toExec, st, isSimulation).Success?
    ensures multiset(Loop(phase, toExec, st, isSimulation).value.rest) <= multiset(toExec)
    ensures x in toExec && Skipped(phase, x) ==> x in Loop(phase, toExec, st, isSimulation).value.rest
    decreases |toExec|
  {
    var Passed(st1, executed) := Pass(phase, toExec, st, isSimulation).value;
    var rest := RemoveAll(toExec, executed);
    var st2 := if phase.OnAfter? then st1.(candidates := rest) else st1;
    RemoveAllCount(toExec, executed);
    RemoveAllMembership(toExec, executed, x);
    if !(|rest| == 0 || |executed| == 0) {
      LoopRemainder(phase, rest, st2, isSimulation, x);
    }
  }

  /**
   * Before repository start an installer without a before-start action is
   * never executed; unless it is a duplicate, it is reported as not
   * executable before repository start.
   */
  lemma ActionlessInstallerReported(st: Run, isSimulation: bool, x: Patch)
    requires x in st.candidates && x.kind.Installer? && x.beforeStart.NoAction?
    requires |InstallersFor(st.candidates, x.componentId)| <= 1
    ensures ExecuteOnBefore(st, isSimulation).Success? ==>
      CannotExecuteOnBefore(x) in ExecuteOnBefore(st, isSimulation).value.errors
  {
    if Loop(OnBefore, st.candidates, st, isSimulation).Success? {
      LoopRemainder(OnBefore, st.candidates, st, isSimulation, x);
      var Looped(rest, st1) := Loop(OnBefore, st.candidates, st, isSimulation).value;
      InstallersForSubMultiset(rest, st.candidates, x.componentId);
      RecognizeErrorsReportsStuck(rest, st1.candidates, st1.installed, st1.errors, true, x);
    }
  }

  /**
   * After repository start a step never changes a recorded successful
   * version: an eligible patch's descriptor has none yet.
   */
  lemma StepKeepsSuccesses(variant: Variant, p: Patch, st: Run, isSimulation: bool)
    requires Step(OnAfter(variant), p, st, isSimulation).Success?
    ensures KeepsSuccesses(st.installed, Step(OnAfter(variant), p, st, isSimulation).value.run.installed)
  {
    var phase := OnAfter(variant);
    if Step(phase, p, st, isSimulation).value.handled && Check(phase, p, st) == Success(Eligible) {
      var st' := Attempt(phase, p, st, isSimulation).value;
      var i := FindIndex(st'.installed, p.componentId).value;
      if i < |st.installed| {
        forall j | 0 <= j < i
          ensures st.installed[j].componentId != p.componentId
        {
          assert st'.installed[j] == st.installed[j];
        }
        assert FindIndex(st.installed, p.componentId) == Some(i);
      }
      AttemptProgresses(phase, p, st, isSimulation);
    }
  }

  lemma {:induction false} PassKeepsSuccesses(variant: Variant, ps: seq<Patch>, st: Run, isSimulation: bool)
    requires Pass(OnAfter(variant), ps, st, isSimulation).Success?
    ensures KeepsSuccesses(st.installed, Pass(OnAfter(variant), ps, st, isSimulation).value.run.installed)
    decreases |ps|
  {
    if |ps| > 0 {
      var st1 := Step(OnAfter(variant), ps[0], st, isSimulation).value.run;
      StepKeepsSuccesses(variant, ps[0], st, isSimulation);
      PassKeepsSuccesses(variant, ps[1..], st1, isSimulation);
      KeepsSuccessesTransitive(st.installed, st1.installed, Pass(OnAfter(variant), ps[1..], st1, isSimulation).value.run.installed);
    }
  }

  lemma {:induction false} LoopKeepsSuccesses(variant: Variant, toExec: seq<Patch>, st: Run, isSimulation: bool)
    requires st.candidates == toExec
    requires Loop(OnAfter(variant), toExec, st, isSimulation).Success?
    ensures KeepsSuccesses(st.installed, Loop(OnAfter(variant), toExec, st, isSimulation).value.run.installed)
    decreases |toExec|
  {
    var Passed(st1, executed) := Pass(OnAfter(variant), toExec, st, isSimulation).value;
    PassKeepsSuccesses(variant, toExec, st, isSimulation);
    var rest := RemoveAll(toExec, executed);
    var st2 := st1.(candidates := rest);
    if !(|rest| == 0 || |executed| == 0) {
      LoopKeepsSuccesses(variant, rest, st2, isSimulation);
      KeepsSuccessesTransitive(st.installed, st2.installed, Loop(OnAfter(variant), rest, st2, isSimulation).value.run.installed);
    }
  }

  /**
   * After repository start an installer whose dependencies are unmet when
   * the pass ends was unmet at its own step too, so the pass did not
   * execute it.
   */
  lemma {:induction false} PassLeavesUnmet(variant: Variant, ps: seq<Patch>, st: Run, isSimulation: bool, x: Patch)
    requires Pass(OnAfter(variant), ps, st, isSimulation).Success?
    requires x.kind.Installer?
    requires !DependenciesMet(x, Pass(OnAfter(variant), ps, st, isSimulation).value.run.installed, false)
    ensures x !in Pass(OnAfter(variant), ps, st, isSimulation).value.executed
    decreases |ps|
  {
    if |ps| > 0 {
      var phase := OnAfter(variant);
      var st1 := Step(phase, ps[0], st, isSimulation).value.run;
      var st2 := Pass(phase, ps[1..], st1, isSimulation).value.run;
      PassLeavesUnmet(variant, ps[1..], st1, isSimulation, x);
      if ps[0] == x && DependenciesMet(x, st.installed, false) {
        StepKeepsSuccesses(variant, x, st, isSimulation);
        PassKeepsSuccesses(variant, ps[1..], st1, isSimulation);
        KeepsSuccessesTransitive(st.installed, st1.installed, st2.installed);
        DependenciesStayMet(x, st.installed, st2.installed);
      }
    }
  }

  /** After repository start an installer whose dependencies are unmet at the end is left over by the loop. */
  lemma {:induction false} LoopLeavesUnmet(variant: Variant, toExec: seq<Patch>, st: Run, isSimulation: bool, x: Patch)
    requires st.candidates == toExec
    requires Loop(OnAfter(variant), toExec, st, isSimulation).Success?
    requires x in toExec && x.kind.Installer?
    requires !DependenciesMet(x, Loop(OnAfter(variant), toExec, st, isSimulation).value.run.installed, false)
    ensures x in Loop(OnAfter(variant), toExec, st, isSimulation).value.rest
    decreases |toExec|
  {
    var phase := OnAfter(variant);
    var Passed(st1, executed) := Pass(phase, toExec, st, isSimulation).value;
    var rest := RemoveAll(toExec, executed);
    var st2 := st1.(candidates := rest);
    if !(|rest| == 0 || |executed| == 0) {
      LoopKeepsSuccesses(variant, rest, st2, isSimulation);
      if DependenciesMet(x, st1.installed, false) {
        DependenciesStayMet(x, st2.installed, Loop(phase, rest, st2, isSimulation).value.run.installed);
      }
      PassLeavesUnmet(variant, toExec, st, isSimulation, x);
      RemoveAllMembership(toExec, executed, x);
      LoopLeavesUnmet(variant, rest, st2, isSimulation, x);
    } else {
      PassLeavesUnmet(variant, toExec, st, isSimulation, x);
      RemoveAllMembership(toExec, executed, x);
    }
  }

  /**
   * After repository start an installer that is not one of several for
   * its component and whose dependencies are still unmet when the phase
   * ends is reported as not executable after repository start; the phase
   * never clears it silently.
   */
  lemma ExecuteOnAfterReportsStuck(st: Run, isSimulation: bool, variant: Variant, x: Patch)
    requires x in st.candidates && x.kind.Installer?
    requires |InstallersFor(st.candidates, x.componentId)| <= 1
    requires ExecuteOnAfter(st, isSimulation, variant).Success?
    requires !DependenciesMet(x, ExecuteOnAfter(st, isSimulation, variant).value.installed, false)
    ensures CannotExecuteOnAfter(x) in ExecuteOnAfter(st, isSimulation, variant).value.errors
  {
    var phase := OnAfter(variant);
    var Looped(rest, st1) := Loop(phase, st.candidates, st, isSimulation).value;
    LoopLeavesUnmet(variant, st.candidates, st, isSimulation, x);
    LoopRemainder(phase, st.candidates, st, isSimulation, x);
    InstallersForSubMultiset(rest, st.candidates, x.componentId);
    RecognizeErrorsReportsStuck(rest, st1.candidates, st1.installed, st1.errors, false, x);
  }
}

=== FILE: finding.dfy ===
/**
 * A component whose installer has a before-start action can first become
 * eligible after repository start, when the dependency it was waiting for
 * has been installed by that phase. As written, that phase then executes
 * it without creating its descriptor, and recording the outcome throws.
 */
module Finding {
  import opened Common
  import opened Versions
  import opened Model
  import opened Lists
  import opened ComponentState
  import opened Prerequisites
  import opened Classifier
  import opened Engine

  const V1 := Version(1, 0, 0, 0)
  const Open := Boundary(None, None)

  /** Installer of `A`: both actions, and a dependency on `B`. */
  const PatchA := Patch(1, "A", V1, "A", Installer, Some([Dependency("B", Open)]), Runs(Succeeds), Runs(Succeeds))

  /** Installer of `B`: only an after-start action, no dependencies. */
  const PatchB := Patch(2, "B", V1, "B", Installer, None, NoAction, Runs(Succeeds))

  const Start := Run([PatchA, PatchB], [], [])

  lemma BeforeStartLeavesBoth()
    ensures ExecuteOnBefore(Start, false) ==
      Success(Run([PatchA, PatchB], [], [CannotExecuteOnBefore(PatchA), CannotExecuteOnBefore(PatchB)]))
  {
    var ab := [PatchA, PatchB];
    assert InstallersFor(ab, "A") == [PatchA];
    assert InstallersFor(ab, "B") == [PatchB];
    assert Step(OnBefore, PatchA, Start, false) == Success(Stepped(Start, false));
    assert Step(OnBefore, PatchB, Start, false) == Success(Stepped(Start, false));
    assert Pass(OnBefore, [PatchB], Start, false) == Success(Passed(Start, []));
    assert Pass(OnBefore, ab, Start, false) == Success(Passed(Start, []));
    assert Loop(OnBefore, ab, Start, false) == Success(Looped(ab, Start));
    assert CollectDuplicateIds([PatchB], ab, []) == [];
    assert CollectDuplicateIds(ab, ab, []) == [];
    assert ClassifyRemaining([PatchB], [], true) == [CannotExecuteOnBefore(PatchB)];
    assert ClassifyRemaining(ab, [], true) == [CannotExecuteOnBefore(PatchA), CannotExecuteOnBefore(PatchB)];
  }

  const AfterBefore := Run([PatchA, PatchB], [], [CannotExecuteOnBefore(PatchA), CannotExecuteOnBefore(PatchB)])

  /** `B`'s descriptor once the after-start phase has installed it. */
  const InstalledB := Descriptor("B", Some(V1), None, None, "B", None)

  /**
   * As written: the first pass after repository start installs `B`; the
   * second finds `A` eligible, executes its action, and then cannot find
   * `A`'s descriptor to record the outcome.
   */
  lemma AsWrittenAfterStartThrows()
    ensures ExecuteOnAfter(AfterBefore, false, AsWritten) == Failure(DescriptorMissing(PatchA))
  {
    var phase := OnAfter(AsWritten);
    var st := AfterBefore;
    var st1 := st.(installed := [InstalledB]);
    var st2 := st1.(candidates := [PatchA]);
    assert InstallersFor(st.candidates, "A") == [PatchA];
    assert InstallersFor(st.candidates, "B") == [PatchB];
    assert Step(phase, PatchA, st, false) == Success(Stepped(st, false));
    var blank := Descriptor("B", None, None, None, "B", None);
    assert CreateInitialState(PatchB, []) == [blank];
    assert FindIndex([blank], "B") == Some(0);
    assert Apply(blank, V1, Successful) == InstalledB;
    assert [blank][0 := InstalledB] == [InstalledB];
    assert ModifyState(PatchB, [blank], Successful) == Success([InstalledB]);
    assert Attempt(phase, PatchB, st, false) == Success(st1);
    assert Step(phase, PatchB, st, false) == Success(Stepped(st1, true));
    assert Pass(phase, [PatchB], st, false) == Success(Passed(st1, [PatchB]));
    assert Pass(phase, st.candidates, st, false) == Success(Passed(st1, [PatchB]));
    assert RemoveAll(st.candidates, [PatchB]) == [PatchA];
    assert InstallersFor([PatchA], "A") == [PatchA];
    assert SatisfiedBy(Dependency("B", Open), [InstalledB], false);
    assert Check(phase, PatchA, st2) == Success(Eligible);
    assert Step(phase, PatchA, st2, false) == Failure(DescriptorMissing(PatchA));
    assert Loop(phase, [PatchA], st2, false) == Failure(DescriptorMissing(PatchA));
  }

  /** `A`'s descriptor once the corrected phase has installed it. */
  const InstalledA := Descriptor("A", Some(V1), None, None, "A", Some([Dependency("B", Open)]))

  /**
   * Corrected: the same run creates `A`'s descriptor before recording the
   * outcome, installs both components and leaves no candidate.
   */
  lemma CorrectedAfterStartInstallsBoth()
    ensures ExecuteOnAfter(AfterBefore, false, Corrected) ==
      Success(Run([], [InstalledB, InstalledA], AfterBefore.errors))
  {
    var phase := OnAfter(Corrected);
    var st := AfterBefore;
    var st1 := st.(installed := [InstalledB]);
    var st2 := st1.(candidates := [PatchA]);
    var st3 := st2.(installed := [InstalledB, InstalledA]);
    assert InstallersFor(st.candidates, "A") == [PatchA];
    assert InstallersFor(st.candidates, "B") == [PatchB];
    assert Step(phase, PatchA, st, false) == Success(Stepped(st, false));
    var blank := Descriptor("B", None, None, None, "B", None);
    assert CreateInitialState(PatchB, []) == [blank];
    assert FindIndex([blank], "B") == Some(0);
    assert Apply(blank, V1, Successful) == InstalledB;
    assert [blank][0 := InstalledB] == [InstalledB];
    assert ModifyState(PatchB, [blank], Successful) == Success([InstalledB]);
    assert Step(phase, PatchB, st, false) == Success(Stepped(st1, true));
    assert Pass(phase, [PatchB], st, false) == Success(Passed(st1, [PatchB]));
    assert Pass(phase, st.candidates, st, false) == Success(Passed(st1, [PatchB]));
    assert RemoveAll(st.candidates, [PatchB]) == [PatchA];
    assert InstallersFor([PatchA], "A") == [PatchA];
    assert SatisfiedBy(Dependency("B", Open), [InstalledB], false);
    assert Check(phase, PatchA, st2) == Success(Eligible);
    var blankA := Descriptor("A", None, None, None, "A", Some([Dependency("B", Open)]));
    assert FindIndex([InstalledB], "A") == None;
    assert CreateInitialState(PatchA, [InstalledB]) == [InstalledB, blankA];
    assert FindIndex([InstalledB, blankA], "A") == Some(1);
    assert Apply(blankA, V1, Successful) == InstalledA;
    assert [InstalledB, blankA][1 := InstalledA] == [InstalledB, InstalledA];
    assert ModifyState(PatchA, [InstalledB, blankA], Successful) == Success([InstalledB, InstalledA]);
    assert Step(phase, PatchA, st2, false) == Success(Stepped(st3, true));
    assert Pass(phase, [PatchA], st2, false) == Success(Passed(st3, [PatchA]));
    assert RemoveAll([PatchA], [PatchA]) == [];
    assert Loop(phase, [PatchA], st2, false) == Success(Looped([], st3.(candidates := [])));
  }
}

=== FILE: ladders.dfy ===
/**
 * How the transition table and the two eligibility ladders fit together:
 * what each recorded outcome makes of the next attempt at a version.
 */
module Ladders {
  import opened Common
  import opened Versions
  import opened Model
  import opened ComponentState
  import opened Prerequisites

  /**
   * After a successful before-start action at `v`, the after-start action
   * of the same version is eligible, and no before-start action of any
   * version runs again for the component.
   */
  lemma SuccessfulBeforeLeadsToAfter(d: Descriptor, d': Descriptor, v: Version, u: Version)
    requires d.version.None?
    requires Transitioned(d, d', v, SuccessfulBefore)
    ensures ComponentRuleAfter(Some(d'), v) == Eligible
    ensures ComponentRuleBefore(Some(d'), u) == Irrelevant
  {
  }

  /**
   * A failed before-start action at `v` is retried by a later run for `v`
   * and newer versions only, and the after-start action of `v` and older
   * versions is no longer run.
   */
  lemma FaultyBeforeAllowsRetry(d: Descriptor, d': Descriptor, v: Version, u: Version)
    requires d.version.None? && d.faultyAfter.None?
    requires Transitioned(d, d', v, FaultyBefore)
    ensures ComponentRuleBefore(Some(d'), u) == Eligible <==> LessEq(v, u)
    ensures ComponentRuleAfter(Some(d'), u) == Irrelevant <==> LessEq(u, v)
  {
    LessIsStrictTotalOrder(u, v, v);
  }

  /**
   * A failed after-start action at `v` blocks every before-start action of
   * the component, while the after-start action of `v` and newer versions
   * stays eligible.
   */
  lemma FaultyAfterBlocksBefore(d: Descriptor, d': Descriptor, v: Version, u: Version)
    requires d.version.None?
    requires Transitioned(d, d', v, Faulty)
    ensures ComponentRuleBefore(Some(d'), u) == Irrelevant
    ensures ComponentRuleAfter(Some(d'), u) == Eligible <==> LessEq(v, u)
  {
    LessIsStrictTotalOrder(u, v, v);
  }

  /** A successfully installed component is irrelevant to every installer in both phases. */
  lemma SuccessfulIsFinal(d: Descriptor, d': Descriptor, v: Version, u: Version)
    requires Transitioned(d, d', v, Successful)
    ensures ComponentRuleBefore(Some(d'), u) == Irrelevant
    ensures ComponentRuleAfter(Some(d'), u) == Irrelevant
  {
  }
}

=== FILE: lists.dfy ===
/**
 * The `List<T>` and LINQ operations the patch manager relies on, with the
 * semantics of the .NET library on reference elements.
 */
module Lists {

  ghost predicate Distinct<T>(s: seq<T>) {
    forall i, j :: 0 <= i < j < |s| ==> s[i] != s[j]
  }

  /** `List<T>.Remove(x)`: drops the first element equal to `x`, if any. */
  function Remove<T(==)>(s: seq<T>, x: T): (r: seq<T>)
    ensures x !in s ==> r == s
    ensures x in s ==> |r| == |s| - 1
  {
    if |s| == 0 then []
    else if s[0] == x then s[1..]
    else
      assert s == [s[0]] + s[1..];
      [s[0]] + Remove(s[1..], x)
  }

  /** `Remove` takes away exactly one occurrence of `x` when there is one. */
  lemma {:induction false} RemoveCount<T>(s: seq<T>, x: T)
    ensures multiset(Remove(s, x)) == multiset(s) - multiset{x}
  {
    if |s| > 0 {
      assert s == [s[0]] + s[1..];
      if s[0] != x {
        RemoveCount(s[1..], x);
      }
    }
  }

  /** What survives `Remove` was there before; everything but the removed element survives. */
  lemma RemoveMembership<T>(s: seq<T>, y: T, x: T)
    ensures x in Remove(s, y) ==> x in s
    ensures x in s && x != y ==> x in Remove(s, y)
  {
    RemoveCount(s, y);
    assert x in Remove(s, y) <==> multiset(Remove(s, y))[x] > 0;
    assert x in s <==> multiset(s)[x] > 0;
  }

  /** `foreach (var x in xs) s.Remove(x);` */
  function RemoveAll<T(==)>(s: seq<T>, xs: seq<T>): (r: seq<T>)
    ensures |r| <= |s|
    ensures |xs| > 0 && xs[0] in s ==> |r| < |s|
    decreases |xs|
  {
    if |xs| == 0 then s
    else RemoveAll(Remove(s, xs[0]), xs[1..])
  }

  /** Removing `xs` one by one takes away one occurrence per element of `xs`, as far as there are any. */
  lemma {:induction false} RemoveAllCount<T>(s: seq<T>, xs: seq<T>)
    ensures multiset(RemoveAll(s, xs)) == multiset(s) - multiset(xs)
    decreases |xs|
  {
    if |xs| > 0 {
      var s' := Remove(s, xs[0]);
      RemoveCount(s, xs[0]);
      RemoveAllCount(s', xs[1..]);
      RemoveAllStep(s, xs, multiset(s'), multiset(RemoveAll(s', xs[1..])));
    }
  }

  lemma RemoveAllStep<T>(s: seq<T>, xs: seq<T>, m': multiset<T>, m: multiset<T>)
    requires |xs| > 0
    requires m' == multiset(s) - multiset{xs[0]}
    requires m == m' - multiset(xs[1..])
    ensures m == multiset(s) - multiset(xs)
  {
    assert xs == [xs[0]] + xs[1..];
    assert multiset(xs) == multiset{xs[0]} + multiset(xs[1..]);
    DifferenceOfSum(multiset(s), multiset{xs[0]}, multiset(xs[1..]));
  }

  /** What survives a removal was there before, and what was not removed survives. */
  lemma RemoveAllMembership<T>(s: seq<T>, xs: seq<T>, x: T)
    ensures x in RemoveAll(s, xs) ==> x in s
    ensures x in s && x !in xs ==> x in RemoveAll(s, xs)
  {
    var r := RemoveAll(s, xs);
    RemoveAllCount(s, xs);
    assert x in r <==> multiset(r)[x] > 0;
    assert x in s <==> multiset(s)[x] > 0;
    assert x in xs <==> multiset(xs)[x] > 0;
  }

  /** Removing elements that are not there changes nothing. */
  lemma {:induction false} RemoveAllAbsent<T>(s: seq<T>, xs: seq<T>)
    requires forall k :: 0 <= k < |xs| ==> xs[k] !in s
    ensures RemoveAll(s, xs) == s
    decreases |xs|
  {
    if |xs| > 0 {
      assert forall k :: 0 <= k < |xs[1..]| ==> xs[1..][k] == xs[k + 1];
      RemoveAllAbsent(s, xs[1..]);
    }
  }

  lemma DifferenceOfSum<T>(a: multiset<T>, b: multiset<T>, c: multiset<T>)
    ensures (a - b) - c == a - (b + c)
  {
    forall y
      ensures ((a - b) - c)[y] == (a - (b + c))[y]
    {
    }
  }

  /**
   * `s.Except(ex)`: the distinct elements of `s` that are not in `ex`, in
   * the order of their first occurrence.
   */
  function Except<T(==)>(s: seq<T>, ex: seq<T>): seq<T>
    decreases |s|
  {
    if |s| == 0 then []
    else if s[0] in ex then Except(s[1..], ex)
    else [s[0]] + Except(s[1..], ex + [s[0]])
  }

  lemma {:induction false} ExceptMembership<T>(s: seq<T>, ex: seq<T>, x: T)
    ensures x in Except(s, ex) <==> x in s && x !in ex
    decreases |s|
  {
    if |s| > 0 {
      assert s == [s[0]] + s[1..];
      if s[0] in ex {
        ExceptMembership(s[1..], ex, x);
      } else {
        ExceptMembership(s[1..], ex + [s[0]], x);
      }
    }
  }

  /**
   * `Except` built from the other end: a further element of the first list
   * is appended to the result exactly when it is neither excluded nor seen
   * before, so the result holds first occurrences in their original order.
   */
  lemma {:induction false} ExceptAppend<T>(s: seq<T>, ex: seq<T>, x: T)
    ensures Except(s + [x], ex) == Except(s, ex) + (if x in s || x in ex then [] else [x])
    decreases |s|
  {
    if |s| == 0 {
      assert s + [x] == [x];
      assert Except([x], ex) == (if x in ex then [] else [x] + Except([], ex + [x]));
    } else {
      assert (s + [x])[1..] == s[1..] + [x];
      assert s == [s[0]] + s[1..];
      if s[0] in ex {
        ExceptAppend(s[1..], ex, x);
      } else {
        ExceptAppend(s[1..], ex + [s[0]], x);
      }
    }
  }

  lemma {:induction false} ExceptDistinct<T>(s: seq<T>, ex: seq<T>)
    ensures Distinct(Except(s, ex))
    decreases |s|
  {
    if |s| > 0 {
      if s[0] in ex {
        ExceptDistinct(s[1..], ex);
      } else {
        var rest := Except(s[1..], ex + [s[0]]);
        ExceptDistinct(s[1..], ex + [s[0]]);
        ExceptMembership(s[1..], ex + [s[0]], s[0]);
        var r := [s[0]] + rest;
        forall i, j | 0 <= i < j < |r|
          ensures r[i] != r[j]
        {
          if i == 0 {
            assert r[j] == rest[j - 1];
          } else {
            assert r[i] == rest[i - 1] && r[j] == rest[j - 1];
          }
        }
      }
    }
  }

  /** `Except` leaves none of the excluded elements, so removing them again changes nothing. */
  lemma ExceptThenRemoveAll<T>(s: seq<T>, ex: seq<T>)
    ensures RemoveAll(Except(s, ex), ex) == Except(s, ex)
  {
    forall k | 0 <= k < |ex|
      ensures ex[k] !in Except(s, ex)
    {
      ExceptMembership(s, ex, ex[k]);
    }
    RemoveAllAbsent(Except(s, ex), ex);
  }

  /** No element occurs more often than the sequence is long. */
  lemma {:induction false} OccurrencesBound<T>(s: seq<T>, x: T)
    ensures multiset(s)[x] <= |s|
  {
    if |s| > 0 {
      assert s == [s[0]] + s[1..];
      OccurrencesBound(s[1..], x);
    }
  }

  /** An element of a duplicate-free sequence occurs exactly once in it. */
  lemma {:induction false} DistinctOccursOnce<T>(s: seq<T>, x: T)
    requires Distinct(s)
    requires x in s
    ensures multiset(s)[x] == 1
  {
    assert s == [s[0]] + s[1..];
    if s[0] == x {
      assert x !in s[1..] by {
        forall k | 0 <= k < |s[1..]|
          ensures s[1..][k] != x
        {
          assert s[1..][k] == s[k + 1];
        }
      }
    } else {
      DistinctOccursOnce(s[1..], x);
    }
  }

  /** A sub-multiset is no longer than the sequence it is taken from. */
  lemma SubMultisetLength<T>(a: seq<T>, b: seq<T>)
    requires multiset(a) <= multiset(b)
    ensures |a| <= |b|
  {
    var rest := multiset(b) - multiset(a);
    assert multiset(b) == multiset(a) + rest;
    assert |multiset(b)| == |multiset(a)| + |rest|;
  }
}

=== FILE: manifest.dfy ===
/**
 * The conversion between patches and stored packages. A package keeps the
 * dependencies in its manifest; an upgrade patch's own boundary travels
 * there as a dependency on its own component, put first.
 */
module Manifest {
  import opened Common
  import opened Versions
  import opened Model

  datatype PackageType = ToolPackage | InstallPackage | PatchPackage

  /** A stored `Package`; the manifest is its dependency list, in order. */
  datatype Package = Package(
    componentId: ComponentId,
    version: Version,
    description: string,
    packageType: PackageType,
    manifest: seq<Dependency>)

  /** The exceptions the conversions throw. */
  datatype ConversionError =
    | NullDependencies       // `patch.Dependencies.ToArray()` on an installer without a dependency list
    | MissingSelfDependency  // `dependencies.First(...)` finds no dependency on the package's own component

  /** The dependency on a patch's own component that an upgrade patch's boundary becomes. */
  function SelfDependency(p: Patch): Dependency
    requires p.kind.Upgrade?
  {
    Dependency(p.componentId, p.kind.boundary)
  }

  /** `CreatePackage`: the package of a patch, with the self-dependency folded into the manifest. */
  function CreatePackage(p: Patch): (r: Result<Package, ConversionError>)
    ensures r.Failure? <==> p.kind.Installer? && p.dependencies.None?
    ensures r.Success? ==>
      && r.value.componentId == p.componentId
      && r.value.version == p.version
      && r.value.description == p.description
      && (r.value.packageType == PatchPackage <==> p.kind.Upgrade?)
      && r.value.packageType != ToolPackage
    ensures r.Success? && p.kind.Upgrade? ==>
      |r.value.manifest| > 0 && r.value.manifest[0] == SelfDependency(p)
  {
    match p.kind
    case Upgrade(boundary) =>
      var deps := if p.dependencies.None? then [] else p.dependencies.value;
      Success(Package(p.componentId, p.version, p.description, PatchPackage, [Dependency(p.componentId, boundary)] + deps))
    case Installer =>
      if p.dependencies.None? then Failure(NullDependencies)
      else Success(Package(p.componentId, p.version, p.description, InstallPackage, p.dependencies.value))
  }

  /** Position of the first dependency on component `id`. */
  function FirstDependencyOn(deps: seq<Dependency>, id: ComponentId): (r: Option<nat>)
    ensures r.Some? ==> r.value < |deps| && deps[r.value].id == id
    ensures r.Some? ==> forall j :: 0 <= j < r.value ==> deps[j].id != id
    ensures r.None? ==> forall j :: 0 <= j < |deps| ==> deps[j].id != id
  {
    if |deps| == 0 then None
    else if deps[0].id == id then Some(0)
    else match FirstDependencyOn(deps[1..], id)
      case None => None
      case Some(k) => Some(k + 1)
  }

  /** `deps` without the element at position `i`. */
  function RemoveAt<T>(deps: seq<T>, i: nat): (r: seq<T>)
    requires i < |deps|
    ensures |r| == |deps| - 1
    ensures forall j :: 0 <= j < i ==> r[j] == deps[j]
    ensures forall j :: i <= j < |r| ==> r[j] == deps[j + 1]
  {
    deps[..i] + deps[i + 1..]
  }

  /**
   * `CreatePatch`: no patch for a tool package, an installer for an
   * install package, and for a patch package an upgrade patch whose
   * boundary is the first dependency on its own component, taken out of the
   * list. The new object has no actions; `ref` is its identity.
   */
  function CreatePatch(pkg: Package, ref: nat): (r: Result<Option<Patch>, ConversionError>)
    ensures r.Failure? <==> pkg.packageType == PatchPackage && FirstDependencyOn(pkg.manifest, pkg.componentId).None?
    ensures r.Failure? ==> r.error == MissingSelfDependency
    ensures r.Success? ==> (r.value.None? <==> pkg.packageType == ToolPackage)
    ensures r.Success? && r.value.Some? ==>
      var p := r.value.value;
      && p.ref == ref
      && p.componentId == pkg.componentId
      && p.version == pkg.version
      && p.description == pkg.description
      && p.beforeStart.NoAction? && p.afterStart.NoAction?
      && p.dependencies.Some?
      && (p.kind.Installer? <==> pkg.packageType == InstallPackage)
      && |p.dependencies.value| + (if p.kind.Upgrade? then 1 else 0) == |pkg.manifest|
    ensures r.Success? && pkg.packageType == InstallPackage ==> r.value.value.dependencies == Some(pkg.manifest)
    ensures r.Success? && pkg.packageType == PatchPackage ==>
      var i := FirstDependencyOn(pkg.manifest, pkg.componentId).value;
      && r.value.value.kind == Upgrade(pkg.manifest[i].boundary)
      && r.value.value.dependencies == Some(RemoveAt(pkg.manifest, i))
  {
    match pkg.packageType
    case ToolPackage => Success(None)
    case InstallPackage =>
      Success(Some(Patch(ref, pkg.componentId, pkg.version, pkg.description, Installer,
                         Some(pkg.manifest), NoAction, NoAction)))
    case PatchPackage =>
      match FirstDependencyOn(pkg.manifest, pkg.componentId)
      case None => Failure(MissingSelfDependency)
      case Some(i) =>
        Success(Some(Patch(ref, pkg.componentId, pkg.version, pkg.description, Upgrade(pkg.manifest[i].boundary),
                           Some(RemoveAt(pkg.manifest, i)), NoAction, NoAction)))
  }

  /** The patch a package gives back: the same but without actions, and with a missing dependency list read as empty. */
  function Stored(p: Patch): Patch {
    p.(beforeStart := NoAction, afterStart := NoAction,
       dependencies := Some(if p.dependencies.None? then [] else p.dependencies.value))
  }

  /**
   * Folding and unfolding the self-dependency round-trips: the patch read
   * back from a patch's package has the same component, version, kind and
   * boundary and the same dependencies, in order.
   */
  lemma PatchRoundTrip(p: Patch, ref: nat)
    requires CreatePackage(p).Success?
    ensures CreatePatch(CreatePackage(p).value, ref) == Success(Some(Stored(p).(ref := ref)))
  {
    var pkg := CreatePackage(p).value;
    if p.kind.Upgrade? {
      assert FirstDependencyOn(pkg.manifest, p.componentId) == Some(0);
      assert RemoveAt(pkg.manifest, 0) == pkg.manifest[1..];
    }
  }

  /**
   * The other way round: a package read as a patch and stored again has
   * its self-dependency moved to the front of the manifest, the other
   * dependencies keeping their order; a package whose self-dependency is
   * already first comes back unchanged.
   */
  lemma PackageRoundTrip(pkg: Package, ref: nat)
    requires CreatePatch(pkg, ref).Success? && CreatePatch(pkg, ref).value.Some?
    ensures var back := CreatePackage(CreatePatch(pkg, ref).value.value);
      && back.Success?
      && (pkg.packageType == InstallPackage ==> back.value == pkg)
      && (pkg.packageType == PatchPackage ==>
            var i := FirstDependencyOn(pkg.manifest, pkg.componentId).value;
            back.value == pkg.(manifest := [pkg.manifest[i]] + RemoveAt(pkg.manifest, i)))
    ensures pkg.packageType == PatchPackage && |pkg.manifest| > 0 && pkg.manifest[0].id == pkg.componentId ==>
      CreatePackage(CreatePatch(pkg, ref).value.value) == Success(pkg)
  {
    if pkg.packageType == PatchPackage {
      var i := FirstDependencyOn(pkg.manifest, pkg.componentId).value;
      assert pkg.manifest[i] == Dependency(pkg.componentId, pkg.manifest[i].boundary);
      if |pkg.manifest| > 0 && pkg.manifest[0].id == pkg.componentId {
        assert i == 0;
        assert [pkg.manifest[0]] + RemoveAt(pkg.manifest, 0) == pkg.manifest;
      }
    }
  }
}

=== FILE: model.dfy ===
/**
 * The entities the patch manager works on: patches (installers and upgrade
 * patches), installed-component descriptors, and the errors it reports.
 */
module Model {
  import opened Common
  import opened Versions

  type ComponentId = string

  /** "Component `id` must currently be installed within `boundary`." */
  datatype Dependency = Dependency(id: ComponentId, boundary: Boundary)

  /** What a patch action does when it is invoked: returns, or throws with a message. */
  datatype Outcome = Succeeds | Throws(message: string)

  /** A nullable action delegate; a present one is represented by the outcome it has. */
  datatype ActionSlot = NoAction | Runs(outcome: Outcome)

  /** `ComponentInstaller`, or `SnPatch` with the boundary of its own component it applies to. */
  datatype PatchKind = Installer | Upgrade(boundary: Boundary)

  /**
   * An `ISnPatch`. Patches are reference objects in the program: `ref`
   * stands for the object's identity, so two entries of a list are the same
   * patch exactly when they are equal values.
   */
  datatype Patch = Patch(
    ref: nat,
    componentId: ComponentId,
    version: Version,
    description: string,
    kind: PatchKind,
    dependencies: Option<seq<Dependency>>,
    beforeStart: ActionSlot,
    afterStart: ActionSlot)

  /** `SnComponentDescriptor`: what is known of one component's installation. */
  datatype Descriptor = Descriptor(
    componentId: ComponentId,
    version: Option<Version>,
    faultyBefore: Option<Version>,
    faultyAfter: Option<Version>,
    description: string,
    dependencies: Option<seq<Dependency>>)

  /** `ExecutionResult`, the outcome recorded against a component. */
  datatype ExecutionResult = Successful | SuccessfulBefore | Faulty | FaultyBefore | Unfinished

  /** `PatchExecutionError`, one per reported problem. */
  datatype ErrorRecord =
    | ExecutionErrorOnBefore(patch: Patch, message: string)
    | ExecutionErrorOnAfter(patch: Patch, message: string)
    | DuplicatedInstaller(id: ComponentId, patches: seq<Patch>)
    | MissingVersion(patch: Patch)
    | CannotExecuteOnBefore(patch: Patch)
    | CannotExecuteOnAfter(patch: Patch)

  /** An exception that escapes a phase and ends it. */
  datatype Abort =
    | NotImplemented(patch: Patch)     // an upgrade patch reached a prerequisite check
    | DescriptorMissing(patch: Patch)  // `installed.First(...)` found no descriptor

  /** The three answers of a prerequisite check. */
  datatype Verdict = Eligible | Irrelevant | NotYet

  /** No two descriptors describe the same component. */
  predicate UniqueIds(installed: seq<Descriptor>) {
    forall i, j :: 0 <= i < j < |installed| ==> installed[i].componentId != installed[j].componentId
  }
}

=== FILE: prerequisites.dfy ===
/**
 * Prerequisite checks: duplicate installers, dependency satisfaction and
 * the eligibility ladders of the two phases.
 */
module Prerequisites {
  import opened Common
  import opened Versions
  import opened Model
  import opened ComponentState

  /** The installers among `patches` that target component `id`, in order. */
  function InstallersFor(patches: seq<Patch>, id: ComponentId): (r: seq<Patch>)
    ensures |r| <= |patches|
    ensures forall k :: 0 <= k < |r| ==> InstallerOf(r[k], id)
  {
    if |patches| == 0 then []
    else if patches[0].kind.Installer? && patches[0].componentId == id then [patches[0]] + InstallersFor(patches[1..], id)
    else InstallersFor(patches[1..], id)
  }

  lemma {:induction false} InstallersForMembership(patches: seq<Patch>, id: ComponentId, x: Patch)
    ensures x in InstallersFor(patches, id) <==> x in patches && InstallerOf(x, id)
  {
    if |patches| > 0 {
      assert patches == [patches[0]] + patches[1..];
      InstallersForMembership(patches[1..], id, x);
    }
  }

  /** `HasDuplicates`: more than one candidate installs the installer's component. */
  predicate HasDuplicates(p: Patch, candidates: seq<Patch>) {
    |InstallersFor(candidates, p.componentId)| > 1
  }

  /** Two different positions of the list hold installers of the same component. */
  ghost predicate TwoInstallers(patches: seq<Patch>, id: ComponentId) {
    exists i, j :: 0 <= i < j < |patches| && InstallerOf(patches[i], id) && InstallerOf(patches[j], id)
  }

  predicate InstallerOf(p: Patch, id: ComponentId) {
    p.kind.Installer? && p.componentId == id
  }

  /** Counting more than one installer means finding two of them. */
  lemma {:induction false} HasDuplicatesMeansTwoInstallers(p: Patch, candidates: seq<Patch>)
    ensures HasDuplicates(p, candidates) <==> TwoInstallers(candidates, p.componentId)
  {
    TwoInstallersCount(candidates, p.componentId);
  }

  lemma {:induction false} TwoInstallersCount(patches: seq<Patch>, id: ComponentId)
    ensures |InstallersFor(patches, id)| > 1 <==> TwoInstallers(patches, id)
    ensures |InstallersFor(patches, id)| > 0 <==> exists i :: 0 <= i < |patches| && InstallerOf(patches[i], id)
  {
    if |patches| > 0 {
      var tail := patches[1..];
      TwoInstallersCount(tail, id);
      if TwoInstallers(tail, id) {
        var i, j :| 0 <= i < j < |tail| && InstallerOf(tail[i], id) && InstallerOf(tail[j], id);
        assert InstallerOf(patches[i + 1], id) && InstallerOf(patches[j + 1], id);
      }
      if exists i :: 0 <= i < |tail| && InstallerOf(tail[i], id) {
        var i :| 0 <= i < |tail| && InstallerOf(tail[i], id);
        assert InstallerOf(patches[i + 1], id);
        if InstallerOf(patches[0], id) {
          assert InstallerOf(patches[0], id) && InstallerOf(patches[i + 1], id);
        }
      }
      if TwoInstallers(patches, id) {
        var i, j :| 0 <= i < j < |patches| && InstallerOf(patches[i], id) && InstallerOf(patches[j], id);
        assert InstallerOf(tail[j - 1], id);
        if i > 0 {
          assert InstallerOf(tail[i - 1], id);
        }
      }
      if exists i :: 0 <= i < |patches| && InstallerOf(patches[i], id) {
        var i :| 0 <= i < |patches| && InstallerOf(patches[i], id);
        if i > 0 {
          assert InstallerOf(tail[i - 1], id);
        }
      }
    }
  }

  /**
   * Dependency `dep` holds against the installed components: some
   * descriptor of its component has its successful version inside the
   * boundary or, before repository start only, its faulty-after version.
   */
  predicate SatisfiedBy(dep: Dependency, installed: seq<Descriptor>, onBefore: bool) {
    exists i :: 0 <= i < |installed| && installed[i].componentId == dep.id &&
      (IsInInterval(dep.boundary, installed[i].version) ||
       (onBefore && IsInInterval(dep.boundary, installed[i].faultyAfter)))
  }

  /** The declarative dependency rule: no self-dependency and every dependency holds. */
  ghost predicate DependenciesMet(p: Patch, installed: seq<Descriptor>, onBefore: bool) {
    p.dependencies.None? ||
    var deps := p.dependencies.value;
    && (forall k :: 0 <= k < |deps| ==> deps[k].id != p.componentId)
    && (forall k :: 0 <= k < |deps| ==> SatisfiedBy(deps[k], installed, onBefore))
  }

  /** `HasCorrectDependencies` */
  function HasCorrectDependencies(p: Patch, installed: seq<Descriptor>, onBefore: bool): (ok: bool)
    ensures ok <==> DependenciesMet(p, installed, onBefore)
    ensures p.dependencies.None? || p.dependencies == Some([]) ==> ok
    ensures p.dependencies.Some? && (exists k :: 0 <= k < |p.dependencies.value| && p.dependencies.value[k].id == p.componentId) ==> !ok
    ensures p.dependencies.Some? && |p.dependencies.value| > 0 && |installed| == 0 ==> !ok
  {
    if p.dependencies.None? then true
    else
      var deps := p.dependencies.value;
      if |deps| == 0 then true
      else if exists k :: 0 <= k < |deps| && deps[k].id == p.componentId then false
      else if |installed| == 0 then
        assert !SatisfiedBy(deps[0], installed, onBefore);
        false
      else forall k :: 0 <= k < |deps| ==> SatisfiedBy(deps[k], installed, onBefore)
  }

  /**
   * Under the after-start rule dependencies met stay met while successful
   * versions stay recorded (before repository start a faulty-after version
   * may also count, and that one can change).
   */
  lemma DependenciesStayMet(p: Patch, installed: seq<Descriptor>, installed': seq<Descriptor>)
    requires KeepsSuccesses(installed, installed')
    requires DependenciesMet(p, installed, false)
    ensures DependenciesMet(p, installed', false)
  {
    if p.dependencies.Some? {
      var deps := p.dependencies.value;
      forall k | 0 <= k < |deps|
        ensures SatisfiedBy(deps[k], installed', false)
      {
        assert SatisfiedBy(deps[k], installed, false);
        var i :| 0 <= i < |installed| && installed[i].componentId == deps[k].id && IsInInterval(deps[k].boundary, installed[i].version);
        assert installed'[i].componentId == deps[k].id;
      }
    }
  }

  /** The after-start rule is the stricter one: what it accepts, the before-start rule accepts too. */
  lemma AfterRuleImpliesBeforeRule(p: Patch, installed: seq<Descriptor>)
    ensures HasCorrectDependencies(p, installed, false) ==> HasCorrectDependencies(p, installed, true)
  {
  }

  /** The component part of the before-start ladder of an installer. */
  function ComponentRuleBefore(component: Option<Descriptor>, v: Version): (r: Verdict)
    ensures r != NotYet
    ensures r == Eligible <==>
      component.None? ||
      (component.value.version.None? && component.value.faultyAfter.None? && !GreaterOpt(component.value.faultyBefore, v))
  {
    match component
    case None => Eligible
    case Some(c) =>
      if c.version.Some? then Irrelevant
      else if c.faultyAfter.Some? then Irrelevant
      else if GreaterOpt(c.faultyBefore, v) then Irrelevant
      else Eligible
  }

  /** The component part of the after-start ladder of an installer. */
  function ComponentRuleAfter(component: Option<Descriptor>, v: Version): (r: Verdict)
    ensures r != NotYet
    ensures r == Eligible <==>
      component.None? ||
      (component.value.version.None? && !GreaterEqOpt(component.value.faultyBefore, v) && !GreaterOpt(component.value.faultyAfter, v))
  {
    match component
    case None => Eligible
    case Some(c) =>
      if c.version.Some? then Irrelevant
      else if GreaterEqOpt(c.faultyBefore, v) then Irrelevant
      else if GreaterOpt(c.faultyAfter, v) then Irrelevant
      else Eligible
  }

  /**
   * `CheckPrerequisitesBefore`. An upgrade patch has no implemented rule
   * and ends the phase with `NotImplemented`.
   */
  function CheckBefore(p: Patch, candidates: seq<Patch>, installed: seq<Descriptor>): (r: Result<Verdict, Abort>)
    ensures r.Failure? <==> p.kind.Upgrade?
    ensures r.Failure? ==> r.error == NotImplemented(p)
    ensures p.kind.Installer? && TwoInstallers(candidates, p.componentId) ==> r == Success(NotYet)
    ensures r == Success(NotYet) <==>
      p.kind.Installer? && (HasDuplicates(p, candidates) || !DependenciesMet(p, installed, true))
    ensures p.kind.Installer? && !HasDuplicates(p, candidates) && DependenciesMet(p, installed, true) ==>
      r == Success(ComponentRuleBefore(Find(installed, p.componentId), p.version))
    ensures r == Success(Eligible) ==>
      && !TwoInstallers(candidates, p.componentId)
      && DependenciesMet(p, installed, true)
      && (Find(installed, p.componentId).None? || Find(installed, p.componentId).value.version.None?)
    ensures r == Success(Irrelevant) ==>
      var c := Find(installed, p.componentId);
      c.Some? && (c.value.version.Some? || c.value.faultyAfter.Some? || GreaterOpt(c.value.faultyBefore, p.version))
  {
    HasDuplicatesMeansTwoInstallers(p, candidates);
    match p.kind
    case Upgrade(_) => Failure(NotImplemented(p))
    case Installer =>
      if HasDuplicates(p, candidates) then Success(NotYet)
      else if !HasCorrectDependencies(p, installed, true) then Success(NotYet)
      else Success(ComponentRuleBefore(Find(installed, p.componentId), p.version))
  }

  /**
   * `CheckPrerequisitesAfter`: the same ladder with the strict dependency
   * rule and the fault thresholds of the after-start phase.
   */
  function CheckAfter(p: Patch, candidates: seq<Patch>, installed: seq<Descriptor>): (r: Result<Verdict, Abort>)
    ensures r.Failure? <==> p.kind.Upgrade?
    ensures r.Failure? ==> r.error == NotImplemented(p)
    ensures p.kind.Installer? && TwoInstallers(candidates, p.componentId) ==> r == Success(NotYet)
    ensures r == Success(NotYet) <==>
      p.kind.Installer? && (HasDuplicates(p, candidates) || !DependenciesMet(p, installed, false))
    ensures p.kind.Installer? && !HasDuplicates(p, candidates) && DependenciesMet(p, installed, false) ==>
      r == Success(ComponentRuleAfter(Find(installed, p.componentId), p.version))
    ensures r == Success(Eligible) ==>
      && !TwoInstallers(candidates, p.componentId)
      && DependenciesMet(p, installed, false)
      && (Find(installed, p.componentId).None? || Find(installed, p.componentId).value.version.None?)
    ensures r == Success(Irrelevant) ==>
      var c := Find(installed, p.componentId);
      c.Some? && (c.value.version.Some? || GreaterEqOpt(c.value.faultyBefore, p.version) || GreaterOpt(c.value.faultyAfter, p.version))
  {
    HasDuplicatesMeansTwoInstallers(p, candidates);
    match p.kind
    case Upgrade(_) => Failure(NotImplemented(p))
    case Installer =>
      if HasDuplicates(p, candidates) then Success(NotYet)
      else if !HasCorrectDependencies(p, installed, false) then Success(NotYet)
      else Success(ComponentRuleAfter(Find(installed, p.componentId), p.version))
  }
}

=== FILE: state.dfy ===
/**
 * The installed-component list and the two ways the patch manager changes
 * it: lazy creation of a descriptor and the state transition after an
 * attempt.
 */
module ComponentState {
  import opened Common
  import opened Versions
  import opened Model

  /** Position of the first descriptor of component `id`. */
  function FindIndex(installed: seq<Descriptor>, id: ComponentId): (r: Option<nat>)
    ensures r.Some? ==> r.value < |installed| && installed[r.value].componentId == id
    ensures r.Some? ==> forall j :: 0 <= j < r.value ==> installed[j].componentId != id
    ensures r.None? <==> forall j :: 0 <= j < |installed| ==> installed[j].componentId != id
  {
    if |installed| == 0 then None
    else if installed[0].componentId == id then Some(0)
    else match FindIndex(installed[1..], id)
      case None => None
      case Some(k) => Some(k + 1)
  }

  /** `installed.FirstOrDefault(x => x.ComponentId == id)` */
  function Find(installed: seq<Descriptor>, id: ComponentId): Option<Descriptor> {
    match FindIndex(installed, id)
    case None => None
    case Some(i) => Some(installed[i])
  }

  /**
   * `CreateInitialState`: the first time a component is touched, a
   * descriptor with no version and no fault marker is appended for it;
   * a component that already has one is left as it is.
   */
  function CreateInitialState(p: Patch, installed: seq<Descriptor>): (r: seq<Descriptor>)
    ensures FindIndex(r, p.componentId).Some?
    ensures |installed| <= |r| <= |installed| + 1 && r[..|installed|] == installed
    ensures FindIndex(installed, p.componentId).Some? ==> r == installed
    ensures FindIndex(installed, p.componentId).None? ==>
      |r| == |installed| + 1 && r[|installed|] == Descriptor(p.componentId, None, None, None, p.description, p.dependencies)
    ensures UniqueIds(installed) ==> UniqueIds(r)
  {
    match FindIndex(installed, p.componentId)
    case Some(_) => installed
    case None =>
      var r := installed + [Descriptor(p.componentId, None, None, None, p.description, p.dependencies)];
      assert r[|installed|].componentId == p.componentId;
      r
  }

  /**
   * The transition table: which of the three version fields an outcome
   * sets, clears or keeps. Nothing else on a descriptor changes.
   */
  predicate Transitioned(d: Descriptor, d': Descriptor, v: Version, result: ExecutionResult) {
    && d'.componentId == d.componentId
    && d'.description == d.description
    && d'.dependencies == d.dependencies
    && match result
       case Successful =>
         d'.version == Some(v) && d'.faultyBefore.None? && d'.faultyAfter.None?
       case SuccessfulBefore | Faulty =>
         d'.version == d.version && d'.faultyBefore.None? && d'.faultyAfter == Some(v)
       case FaultyBefore | Unfinished =>
         d'.version == d.version && d'.faultyBefore == Some(v) && d'.faultyAfter == d.faultyAfter
  }

  function Apply(d: Descriptor, v: Version, result: ExecutionResult): Descriptor {
    match result
    case Successful => d.(version := Some(v), faultyBefore := None, faultyAfter := None)
    case SuccessfulBefore | Faulty => d.(faultyBefore := None, faultyAfter := Some(v))
    case FaultyBefore | Unfinished => d.(faultyBefore := Some(v))
  }

  /**
   * `ModifyState`: applies the transition table to the first descriptor of
   * the patch's component; `installed.First(...)` throws when there is none.
   */
  function ModifyState(p: Patch, installed: seq<Descriptor>, result: ExecutionResult): (r: Result<seq<Descriptor>, Abort>)
    ensures r.Failure? <==> FindIndex(installed, p.componentId).None?
    ensures r.Failure? ==> r.error == DescriptorMissing(p)
    ensures r.Success? ==>
      var i := FindIndex(installed, p.componentId).value;
      && |r.value| == |installed|
      && Transitioned(installed[i], r.value[i], p.version, result)
      && forall j :: 0 <= j < |installed| && j != i ==> r.value[j] == installed[j]
  {
    match FindIndex(installed, p.componentId)
    case None => Failure(DescriptorMissing(p))
    case Some(i) => Success(installed[i := Apply(installed[i], p.version, result)])
  }

  /** Lazy creation puts the component's descriptor where it already was, or at the end. */
  lemma CreateInitialStateFindIndex(p: Patch, installed: seq<Descriptor>)
    ensures FindIndex(CreateInitialState(p, installed), p.componentId) ==
      if FindIndex(installed, p.componentId).Some? then FindIndex(installed, p.componentId) else Some(|installed|)
  {
    var r := CreateInitialState(p, installed);
    if FindIndex(installed, p.componentId).None? {
      forall j | 0 <= j < |installed|
        ensures r[j].componentId != p.componentId
      {
        assert r[..|installed|][j] == r[j];
      }
    }
  }

  /** A state change leaves the component's descriptor at the same position. */
  lemma ModifyStateFindIndex(p: Patch, installed: seq<Descriptor>, result: ExecutionResult)
    requires ModifyState(p, installed, result).Success?
    ensures FindIndex(ModifyState(p, installed, result).value, p.componentId) == FindIndex(installed, p.componentId)
  {
    var r := ModifyState(p, installed, result).value;
    var i := FindIndex(installed, p.componentId).value;
    assert r[i].componentId == p.componentId;
  }

  /** The descriptor list only grows, and each position keeps its component. */
  ghost predicate Extends(installed: seq<Descriptor>, installed': seq<Descriptor>) {
    && |installed| <= |installed'|
    && forall i :: 0 <= i < |installed| ==> installed'[i].componentId == installed[i].componentId
  }

  /** No successful version is recorded or cleared: every position keeps its `version`. */
  ghost predicate KeepsVersions(installed: seq<Descriptor>, installed': seq<Descriptor>) {
    && (forall i :: 0 <= i < |installed| && i < |installed'| ==> installed'[i].version == installed[i].version)
    && (forall i :: |installed| <= i < |installed'| ==> installed'[i].version.None?)
  }

  /** Positions keep their components, and a successful version once recorded is never changed or cleared. */
  ghost predicate KeepsSuccesses(installed: seq<Descriptor>, installed': seq<Descriptor>) {
    && Extends(installed, installed')
    && forall i :: 0 <= i < |installed| && installed[i].version.Some? ==> installed'[i].version == installed[i].version
  }

  /** A state change keeps the list's shape: same ids, at most one new descriptor per created component. */
  lemma ModifyStateKeepsShape(p: Patch, installed: seq<Descriptor>, result: ExecutionResult)
    requires ModifyState(p, installed, result).Success?
    ensures Extends(installed, ModifyState(p, installed, result).value)
    ensures UniqueIds(installed) ==> UniqueIds(ModifyState(p, installed, result).value)
    ensures result != Successful ==> KeepsVersions(installed, ModifyState(p, installed, result).value)
  {
  }

  /** Creating the initial descriptor keeps the list's shape and records no version. */
  lemma CreateInitialStateKeepsShape(p: Patch, installed: seq<Descriptor>)
    ensures Extends(installed, CreateInitialState(p, installed))
    ensures KeepsVersions(installed, CreateInitialState(p, installed))
  {
    var r := CreateInitialState(p, installed);
    forall i | 0 <= i < |installed|
      ensures r[i] == installed[i]
    {
      assert r[..|installed|][i] == r[i];
    }
  }

  lemma ExtendsTransitive(a: seq<Descriptor>, b: seq<Descriptor>, c: seq<Descriptor>)
    requires Extends(a, b) && Extends(b, c)
    ensures Extends(a, c)
  {
  }

  lemma KeepsVersionsTransitive(a: seq<Descriptor>, b: seq<Descriptor>, c: seq<Descriptor>)
    requires Extends(a, b) && KeepsVersions(a, b) && KeepsVersions(b, c)
    ensures KeepsVersions(a, c)
  {
  }

  lemma KeepsSuccessesTransitive(a: seq<Descriptor>, b: seq<Descriptor>, c: seq<Descriptor>)
    requires KeepsSuccesses(a, b) && KeepsSuccesses(b, c)
    ensures KeepsSuccesses(a, c)
  {
  }

  /**
   * Component `id` has the same descriptors in `b` as in `a`: every entry
   * of `b` for `id` is the entry at the same position of `a`.
   */
  ghost predicate Untouched(id: ComponentId, a: seq<Descriptor>, b: seq<Descriptor>) {
    forall i :: 0 <= i < |b| && b[i].componentId == id ==> i < |a| && b[i] == a[i]
  }

  lemma UntouchedTransitive(id: ComponentId, a: seq<Descriptor>, b: seq<Descriptor>, c: seq<Descriptor>)
    requires Untouched(id, a, b) && Untouched(id, b, c)
    ensures Untouched(id, a, c)
  {
  }

  /** Creating the descriptor of one component leaves every other component's descriptors as they are. */
  lemma CreateInitialStateUntouched(p: Patch, installed: seq<Descriptor>, id: ComponentId)
    requires p.componentId != id
    ensures Untouched(id, installed, CreateInitialState(p, installed))
  {
    CreateInitialStateKeepsShape(p, installed);
  }

  /** Changing the state of one component leaves every other component's descriptors as they are. */
  lemma ModifyStateUntouched(p: Patch, installed: seq<Descriptor>, result: ExecutionResult, id: ComponentId)
    requires p.componentId != id
    requires ModifyState(p, installed, result).Success?
    ensures Untouched(id, installed, ModifyState(p, installed, result).value)
  {
  }
}

=== FILE: versions.dfy ===
/**
 * `System.Version` and the version interval (`VersionBoundary`) that
 * dependencies are expressed with.
 */
module Versions {
  import opened Common

  /**
   * major.minor[.build[.revision]]; like `System.Version`, an omitted build
   * or revision component is stored as -1, so that 1.0 sorts before 1.0.0.
   */
  datatype Version = Version(major: int, minor: int, build: int, revision: int)

  /** `a.CompareTo(b) < 0`: component-wise, most significant first. */
  predicate Less(a: Version, b: Version) {
    || a.major < b.major
    || (a.major == b.major && a.minor < b.minor)
    || (a.major == b.major && a.minor == b.minor && a.build < b.build)
    || (a.major == b.major && a.minor == b.minor && a.build == b.build && a.revision < b.revision)
  }

  /** `a.CompareTo(b) <= 0` */
  predicate LessEq(a: Version, b: Version) {
    Less(a, b) || a == b
  }

  /*
   * The C# operators on possibly-null versions. `System.Version` is a class,
   * so `x > v` is `v < x` and `x >= v` is `v <= x`; with a non-null `v`
   * these call `v.CompareTo(x)`, which ranks every version above null.
   */

  /** `x > v` for a nullable `x` and a non-null `v`: false when `x` is null. */
  predicate GreaterOpt(x: Option<Version>, v: Version) {
    x.Some? && Less(v, x.value)
  }

  /** `x >= v` for a nullable `x` and a non-null `v`: false when `x` is null. */
  predicate GreaterEqOpt(x: Option<Version>, v: Version) {
    x.Some? && LessEq(v, x.value)
  }

  /** `x < v` for a nullable `x` and a non-null `v`: a null `x` is below every version. */
  predicate LessOpt(x: Option<Version>, v: Version) {
    x.None? || Less(x.value, v)
  }

  /** The version order is a strict total order. */
  lemma LessIsStrictTotalOrder(a: Version, b: Version, c: Version)
    ensures !Less(a, a)
    ensures Less(a, b) && Less(b, c) ==> Less(a, c)
    ensures Less(a, b) || a == b || Less(b, a)
    ensures !(Less(a, b) && Less(b, a))
  {
  }

  /** One end of an interval; an absent end leaves that side open. */
  datatype Bound = Bound(version: Version, exclusive: bool)

  datatype Boundary = Boundary(min: Option<Bound>, max: Option<Bound>)

  predicate AboveMin(min: Option<Bound>, v: Version) {
    match min
    case None => true
    case Some(b) => if b.exclusive then Less(b.version, v) else LessEq(b.version, v)
  }

  predicate BelowMax(max: Option<Bound>, v: Version) {
    match max
    case None => true
    case Some(b) => if b.exclusive then Less(v, b.version) else LessEq(v, b.version)
  }

  /** `Boundary.IsInInterval`: a null version is never inside an interval. */
  predicate IsInInterval(boundary: Boundary, v: Option<Version>) {
    v.Some? && AboveMin(boundary.min, v.value) && BelowMax(boundary.max, v.value)
  }
}
